=== FILE: README.md ===
# Visited-link markers, modelled in Dafny

This project models the browser extension "Visit history markers". The
extension marks the links on a web page that the user has visited before.
Each marked link is coloured by how recently it was visited: within the last
hour (recent), earlier today (today), or before today (earlier).

The model has three parts:

- **Content script.** This is the per-page logic: the settings read at
  start-up, the site-exclusion gate, the retention filter applied when the
  visit ledger is loaded, the per-link marking step and the sweeps that apply
  it, the visibility switch, the message router, the click listener that
  records visits, and manual-mark mode.
- **Background script.** This covers the ledger write for history visits, the
  daily purge, the auto-enable rule, and the mapping of context-menu items
  and keyboard commands to messages.
- **Options page.** This covers the exclusion-list editor and the settings
  save.

Everything is written as immutable data and pure step functions:

- A page is a sequence of anchors. Each anchor has an identity, its literal
  `href` attribute and its resolved URL.
- The ledger is a map from URL to visit time in milliseconds.
- The content script's per-page state is one record: settings, visit map,
  `markApplied`, markers, visibility, the page-marking flag, observer,
  button, and manual-mode selection.

Browser services are parameters of the step functions. Storage reads, the
current time and the start of the local day are given as inputs. Storage
writes, messages and toasts are returned as results.

Modules:

- `Wrappers`: the `Option` type.
- `Strings`: the prefix and suffix tests, ASCII `trim` and `toLowerCase`, and
  split/join on a separator.
- `Config`: the settings record, partial settings objects, each script's
  defaults, and object spread versus `storage.set`.
- `Classifier`: the three recency tiers.
- `Ledger`: the retention rules and the single-visit write.
- `Exclusion`: the host-exclusion predicate.
- `Marking`: the page state, the marking step, sweeps, visibility,
  force-mark and ignore.
- `ManualMark`: Tab/Shift+Tab selection, Enter and click-to-mark.
- `Router`: `handleMessages`.
- `Lifecycle`: `init`, the mutation observer, reloads, the page click
  listener.
- `Background`: `background.js`.
- `Domain`: the options page's domain regular expression.
- `Options`: `options.js`.

Behaviours of the code worth noting:

- `enablePage` only sets the page flag. It does not re-sweep the page.
- A page is disabled by a boolean flag only. No timestamp suppresses visits
  made after the page was disabled.
- On an excluded site, `init` returns early, but the page's click listener
  and the message listener are still installed. The `visibilitychange` and
  `popstate` reloads never consult the exclusion list.
- In session mode a click still writes the visit to the stored ledger. Only
  the load step ignores stored entries.
- The background script sends `forceMarkLink` for any non-empty link URL.
  The ledger write skips non-http URLs, but the page still marks the
  elements.

## Model

| member | source | states |
|---|---|---|
| Classifier.Classify | content.js:187-206 | A visit falls in exactly one tier. It is Recent iff less than an hour old. Otherwise it is Today iff visited at or after local midnight, and Earlier otherwise. |
| Classifier.ClassifyMonotone | content.js:187-206 | For a fixed visit and day start, a later current time never gives a higher tier, and a link that is no longer Recent never becomes Recent again. |
| Classifier.ClassifyNow | content.js:193-195 | A visit classified at the moment it is made is Recent. |
| Classifier.VisitTimeline | content.js:187-206 | One visit is Recent half an hour later, Today two hours later on the same day, and Earlier the next day. |
| Ledger.Survivors | content.js:103-125 | A load keeps every stored entry in all-time mode and none in session mode. Otherwise it keeps exactly the entries no older than the window: custom days in custom mode, seven days in any other mode. An entry exactly at the cutoff is kept, and kept entries keep their stored times. |
| Ledger.Load | content.js:127-130 | Survivors are merged into the in-memory map and take their stored time. Every other in-memory entry is kept, so a load never forgets a visit. |
| Ledger.CustomCutoffBoundary | content.js:113-124 | In custom mode an entry exactly N days old is loaded, and one a millisecond older is not. |
| Ledger.WiderWindowKeepsMore | content.js:113-124 | A longer custom window keeps every entry a shorter window keeps. |
| Ledger.PurgeInvisibleToLoad | background.js:54-69 | Take a purge that runs no later than a load, with a clean period at least the load's window, in any mode except all-time. Loading the purged ledger then shows the same entries as loading the unpurged one. |
| Ledger.RegisterVisit | background.js:98-110 | A non-http URL leaves the ledger unchanged. Otherwise the URL is set to the current time, the key set grows by that URL only, and every other key keeps its time. |
| Ledger.RegisterVisitLastWriterWins | background.js:105-108 | Registering one URL twice keeps the later time. Registering two different URLs commutes. |
| Exclusion.IsExcluded | content.js:93-96 | A host is excluded iff some listed site equals it or is a dot-suffix of it. |
| Exclusion.SubdomainExcluded | content.js:95 | Every subdomain of an excluded host is excluded. |
| Exclusion.AppendExcludes | background.js:205-208 | Appending a site to the list excludes that site and keeps every earlier exclusion. |
| Config.Overlay | content.js:443 | Object spread: every key present in the payload takes the payload's value, and every absent key keeps the old value. |
| Config.MergeLookup | options.js:193 | A storage write replaces exactly the keys it carries and keeps all others. |
| Config.RestrictLookup | content.js:57 | A read with a defaults object returns exactly the keys that object names. |
| Config.OverlayMerge | popup.js:130-132 | Spreading two payloads in turn over the in-memory settings equals spreading the store merge of the two writes. |
| Config.OverlayIdempotent | content.js:443 | Spreading the same payload twice has the effect of spreading it once. |
| Marking.ApplyMarkStyle | content.js:167-184 | The element gets the tier of the visit time now and the visit time. It carries the hidden class iff marks are invisible. No other element changes, and the bookkeeping invariant is kept. |
| Marking.ProcessLink | content.js:148-164 | An element already in `markApplied` is untouched. Any other element joins `markApplied` iff its href is non-empty, starts with "http" and is a visited URL. In that case it is marked with that visit's tier and time. A non-qualifying element changes nothing. |
| Marking.ProcessLinkIdempotent | content.js:149-163 | Running `processLink` twice on an element equals running it once. |
| Marking.Sweep | content.js:138-145 | A sweep touches only listed elements that are not yet in `markApplied`. Every newly applied element is a listed, qualifying anchor. The invariant is kept. |
| Marking.SweepIdempotent | content.js:138-145 | Sweeping an unchanged page a second time changes nothing. |
| Marking.SweepMarksExactly | content.js:141-144 | Over distinct anchors, a sweep marks exactly the qualifying ones among those not yet in `markApplied`, each with its visit's tier, time and hidden flag. Every other element is left as it was. |
| Marking.InsertedSubtreeScenario | content.js:335-357 | A subtree with three new anchors, two of them visited, gains exactly two markers, and no other element changes. |
| Marking.MarkVisitedLinksOnPage | content.js:138-145 | The whole-page sweep does nothing while the extension or the current page's display is off. With both on, over distinct anchors, each page anchor not yet in `markApplied` joins it iff it qualifies, and carries its visit's tier, time and hidden flag. Elements off the page and elements already applied keep their markers. `markApplied` only grows, and only marker bookkeeping changes. |
| Marking.ToggleVisibility | content.js:389-399 | The visibility flag flips. Every marker keeps its tier and time and carries the hidden class iff marks are now invisible. Nothing else changes. |
| Marking.ToggleTwice | content.js:389-399 | Toggling twice restores the flag and every marker. |
| Marking.UpdateVisibility | content.js:519-541 | Visibility becomes `enabled && showCurrentPage`. When it already had that value, nothing changes. When it changes, every marker keeps its tier and time and only its hidden class follows the new value. |
| Marking.UpdateVisibilityIdempotent | content.js:519-541 | Recomputing visibility a second time changes nothing. |
| Marking.ForceMark | content.js:456-468 | Every element whose href attribute equals the URL joins `markApplied` and is marked with the current time's tier and time, whatever the ledger and the page flag say. No other element changes. |
| Marking.Ignore | content.js:470-484 | Every element whose href attribute equals the URL loses its marker, its hidden class and its `markApplied` entry. The visit map and all other elements are unchanged. |
| Marking.IgnoreThenSweepRemarks | content.js:470-484 | After `ignoreLink`, a visited link is marked again by the next `processLink`. |
| Marking.ClickedLink | content.js:557-565 | The walk from the click target finds the nearest anchor with a non-empty http href, or none when the path has no such anchor. |
| Marking.RegisterLinkVisit | content.js:569-581 | The URL is set to the current time in the page's visit map and in the stored ledger, and every other entry is kept. For an http URL the stored write is `registerVisit`. |
| ManualMark.MarkableLinks | content.js:636 | The mode's links are exactly the page's anchors whose href attribute starts with "http", and they have distinct identities. |
| ManualMark.MarkableLinksKeepsOrder | content.js:636 | The selection keeps document order: over two stretches of the page it is the first stretch's links followed by the second's. So the first and last links that Tab and Shift+Tab wrap to are the page's. |
| ManualMark.IndexOf | content.js:667 | The first position of the highlighted link, or -1 when it is absent. |
| ManualMark.NextIndex | content.js:669-675 | The next index is always in range. From no highlight, Tab goes to the first link and Shift+Tab to the last. |
| ManualMark.NextIndexIsModular | content.js:669-675 | On a highlighted link, Tab moves to (i+1) mod n and Shift+Tab to (i-1+n) mod n. |
| ManualMark.TabShiftTabInverse | content.js:669-675 | Shift+Tab undoes Tab, and Tab undoes Shift+Tab. |
| ManualMark.TabCycle | content.js:674 | k Tab presses from index i land on (i+k) mod n, so every link is reachable and n presses come back. |
| ManualMark.MarkLink | content.js:652-659 | An http link is recorded as visited now in the page map and in the stored ledger. It ends up in `markApplied`, and if it was not already there it is marked Recent. An already-applied link keeps its marker, and every other element keeps its marker. The settings, visibility, page flag, observer and button are unchanged, and the mode ends. The page flag is not consulted, and a link without an http href does nothing. |
| ManualMark.OnKey | content.js:662-691 | Without the mode, keys do nothing. Escape ends the mode. Tab and Shift+Tab change only the highlight. With no links they do nothing; otherwise they highlight the link at the next index from the highlighted one's position. Enter marks the highlighted link, or does nothing when none is highlighted. Unknown keys do nothing. |
| ManualMark.TabThenShiftTabRestores | content.js:664-678 | With distinct links, Tab then Shift+Tab (or the reverse) from a highlighted link gives back the same state. |
| ManualMark.OnSelectingClick | content.js:694-729 | A click in the prompt box, or one that reaches no http link, changes nothing. A click on the highlighted link marks it. A click on any other http link highlights that link. |
| ManualMark.ClickTwiceMarks | content.js:707-715 | Clicking a link twice in the mode marks it and records the visit now. |
| Router.Handle | content.js:412-516 | A message without a type fails with "Invalid message" and changes nothing. Every other message succeeds, and unknown types change nothing. Each message type has its transition: the toggles store the value and recompute visibility; style and colour updates store the value and rebuild the style sheet; `applySettings` overlays the payload, rebuilds styles, and keeps manual mode and the observer; visibility, force-mark and ignore run their page operations with their toasts; the page-flag messages set the flag, write it and notify; `siteMuted` only notifies; `addManualMark` only enters the mode. No message changes the visit map, and every message keeps the bookkeeping invariant. |
| Router.HandleSettings | content.js:421-450 | The settings messages change the stored value, then recompute visibility or ask for a style rebuild. They keep the visit map, `markApplied`, the set of marked elements and the page flag. |
| Router.HandlePage | content.js:451-510 | The page messages never change the settings. Each of them performs its page operation, with its toast, its page-flag write or its entry into manual mode. |
| Router.SyncButton | content.js:544-550 | The floating button is present iff `showControlButton` is set, and nothing else changes. |
| Router.ApplySettingsOverridesOnlyPresent | content.js:441-449 | `applySettings` changes exactly the keys the payload carries. Visibility is then recomputed, the button follows the setting, and markers and the page flag are kept. |
| Router.PageFlagMessagesOnlySetFlag | content.js:486-496 | `disablePage` and `enablePage` set only the page flag and ask for it to be stored. Nothing is swept. |
| Router.ForceMarkWhileDisabled | content.js:456-468 | With page marking off, `forceMarkLink` still marks the selected elements Recent at the current time. The visit map is unchanged. |
| Router.IgnoreThenForceMark | content.js:456-484 | `ignoreLink` then `forceMarkLink` on one URL leaves its elements marked Recent, and neither message touches the visit map. |
| Router.ToggleMessageTwice | content.js:451-454 | Two `toggleVisibility` messages restore the page. |
| Router.HandleAll | content.js:412-516 | Any sequence of messages keeps the bookkeeping invariant and the visit map. |
| Lifecycle.ReadSettingsAsWritten | content.js:57-58 | As written, the start-up read returns only the seven keys of the content defaults, and `showControlButton` is always unset. |
| Lifecycle.ButtonNeverRequestedAsWritten | content.js:81-83 | Even when the store says to show the button, start-up as written never adds it. |
| Lifecycle.ReadSettings | content.js:57-58 | The corrected start-up read returns the seven content keys with their defaults, plus `showControlButton` with its default of true. |
| Lifecycle.Start | content.js:61-85 | Given the settings read, the ledger is read iff the host is not excluded, and an excluded page stays fresh. Otherwise the visit map is the stored ledger's survivors, the page flag is the stored one (true unless stored false), the observer is installed iff marking is shown, and the button follows the settings read. Start-up leaves markers visible and manual-mark mode off. |
| Lifecycle.Init | content.js:55-90 | Start-up as written, over the as-written settings read. The ledger is read iff the host is not excluded. An excluded page stays fresh. Otherwise the visit map is the stored ledger's survivors, the page flag is the stored one, and the observer is installed iff marking is shown. The floating button is never present. Markers are visible and manual-mark mode is off. |
| Lifecycle.InitIntended | content.js:55-90 | Start-up with the corrected settings read agrees with `init` on the ledger read, the visit map, the page flag and the observer. The button is present iff the site is not excluded and the stored `showControlButton` is true or absent. Markers are visible and manual-mark mode is off. |
| Lifecycle.ButtonAtStartUp | content.js:81-83 | When the store asks for the button (or says nothing) on a site that is not excluded, start-up as written has no button and start-up as intended has one. |
| Lifecycle.ExcludedSiteShortCircuits | content.js:61-63 | On an excluded site nothing is loaded or marked, and no observer or button is installed. |
| Lifecycle.InitMarksLoadedVisits | content.js:70-72 | On a site that is not excluded, with marking shown, start-up marks exactly the anchors that qualify under the loaded visits. |
| Lifecycle.OnMutation | content.js:328-365 | Inserted anchors are swept only when the observer was installed. Then each inserted anchor not yet applied is marked iff it qualifies, with its visit's tier and time. Other elements and already-applied ones keep their markers. |
| Lifecycle.Reload | content.js:756-787 | A reload re-reads the page flag, merges a fresh load into the visit map (never dropping a visit) and sweeps again. It keeps the settings, visibility, observer, button and manual mode. Elements off the page leave `markApplied` and keep their markers. With marking shown, over distinct anchors, a page anchor is in `markApplied` iff it qualifies against the new visit map, and each qualifying one carries its visit's tier, time and hidden flag. With marking not shown it forgets `markApplied` and leaves every marker in place. |
| Lifecycle.ReloadRefreshesTiers | content.js:763-768 | After a reload, every qualifying anchor carries its visit's tier at the reload time. |
| Lifecycle.RecordClick | content.js:553-566 | With page marking off, a click records nothing. With it on, only the nearest http anchor's URL is set to now, in the page map and in the stored ledger. |
| Lifecycle.OnClick | content.js:553-566 | Outside manual mode, a click is exactly the page listener's step. The invariant is kept. |
| Lifecycle.ClickGate | content.js:553-566 | Disabling the page makes a click a no-op. With marking on, a click adds exactly the clicked URL to the ledger's keys, sets it to now, and keeps every other key's time. |
| Lifecycle.ExcludedSiteStillRecordsClicks | content.js:553-566 | On an excluded site the click listener still writes the clicked link's visit. |
| Lifecycle.ManualModeClickAlsoRecords | content.js:553-566 | In manual-mark mode, with page marking on, a click that only highlights a link has already recorded its visit in the page map and the stored ledger, because the page's own listener runs first. |
| Lifecycle.ClickOnHighlightedMarks | content.js:694-711 | In manual-mark mode, a click on the highlighted link runs the page's listener and then `markLink`. The visit is written now to the page map and the stored ledger, the link is in `markApplied`, and the mode ends. |
| Background.PurgeExpired | background.js:60-69 | The purge removes exactly the entries older than the cutoff and keeps every other entry with its time. It reports a change iff some entry was expired. |
| Background.SetupAutoCleaning | background.js:52-76 | With auto-clean on, the ledger keeps exactly the entries within the clean period, and it is written iff something expired. With auto-clean off, nothing happens. |
| Background.PurgeIdempotent | background.js:64-69 | A second purge at the same time changes nothing and writes nothing. |
| Background.AutoEnableWrite | background.js:36-38 | `enabled` is written, as true, iff auto-enable is on and the extension is disabled. No other key changes. |
| Background.HandleContextMenuClick | background.js:176-241 | Force-mark registers the visit and sends `forceMarkLink` for that URL. Ignore-site appends the host only if it is absent and sends `siteMuted` only then. The other items map one-to-one to their messages, and unknown items send nothing. |
| Background.IgnoreSiteExcludesHost | background.js:198-217 | After ignore-site, the host and its subdomains are excluded and the old entries keep their order. Repeating ignore-site changes nothing. |
| Background.ForceMarkEndToEnd | background.js:178-187 | A force-mark writes the ledger, and the page receiving it marks every element with that href attribute Recent. |
| Background.HandleCommand | background.js:244-267 | `toggle-marks` maps to `toggleVisibility` and `add-mark` to `addManualMark`, each sent to the first active tab. No tab, or an unknown command, sends nothing. |
| Background.ShortcutsReachPage | background.js:251-265 | Pressing the toggle shortcut twice leaves the page as it was. The add-mark shortcut puts the page into manual-mark mode over its http links, with nothing highlighted. |
| Domain.GeneratedDomainsAccepted | options.js:114 | Every string the pattern generates (one or more labels, each followed by a dot, then two or more letters) is accepted. |
| Domain.AcceptedDomainsGenerated | options.js:114 | Every accepted string is one or more labels and a letters-only top label joined by dots. This is the converse of `GeneratedDomainsAccepted`. |
| Domain.DomainHasNoSpaceOrUpper | options.js:114 | An accepted domain has no white space and no upper-case letter. |
| Strings.Trim | options.js:106 | `trim` returns the run of the input after its leading white space, ending before its trailing white space: every character before and after the run is white space, and the run neither starts nor ends with a space. |
| Strings.TrimKeepsNonSpace | options.js:106 | Trimming removes only white space. The result is the contiguous run of the input after its leading spaces, and everything outside the run is white space. It holds only characters of the input and keeps every character that is not white space. |
| Options.Normalise | options.js:106 | The normalised input is the input's trimmed run, character by character lower-cased: everything dropped on either side is white space. The result has no leading or trailing white space. |
| Options.NormaliseIdempotent | options.js:106 | Normalising twice equals normalising once. |
| Options.NormaliseDomain | options.js:106-114 | A well-formed domain is unchanged by normalisation, so the editor takes it as typed. |
| Options.AddExcludeSite | options.js:105-133 | Empty input, malformed input and an already-listed site are each rejected, each under its own condition, and a rejection leaves the list unchanged. Otherwise the site is appended and the length grows by one. A list without duplicates stays without duplicates. |
| Options.AddDomain | options.js:105-133 | A well-formed domain not yet listed is appended as typed, with no rejection. |
| Options.AddNormalisesFirst | options.js:106-121 | Every check sees the normalised input: adding the raw text equals adding its normalised form. |
| Options.AddedSiteIsExcluded | options.js:126-127 | An accepted site and its subdomains are excluded by the new list. |
| Options.RemoveExcludeSite | options.js:136-144 | Removal drops every occurrence of the site and keeps every other entry. A list without the site is unchanged. |
| Options.RemoveKeepsOrder | options.js:138 | Removal works piece by piece, so the kept entries stay in their relative order. |
| Options.AddThenRemove | options.js:105-144 | Removing a site that was just added gives back the original list. |
| Options.SaveSettings | options.js:167-197 | The form decides its six keys. The stored exclusion list, colours and mark style are kept when present, and `enabled` and `showCurrentPage` are not written. |
| Options.SaveIgnoresFormForProtectedKeys | options.js:179-190 | No form can change the exclusion list, colours or mark style: two saves from the same store agree on them. |
| Options.SaveOnFreshProfileStoresDefaultSites | options.js:179-190 | Saving on a profile with no stored exclusion list stores the options page's default list, which then excludes mail.google.com. |

## Left out

- Browser plumbing is left out: `chrome.storage`, `chrome.tabs`, `chrome.contextMenus`, `chrome.commands`, and the ordering of callbacks and of races between a read and its write. Storage reads are inputs, and writes and messages are results.
- The message router's notifications are returned as `Notify` effects. The toast's DOM element and its timers are not modelled.
- ManualMark.MarkLink: the "link marked" toast is not returned, because the manual-mode steps return only the page state and the ledger.
- DOM wiring is left out: `querySelectorAll`, listener registration and removal, `scrollIntoView`, and the highlight class. The mutation observer is reduced to "sweep the inserted anchors".
- Timers are left out: the 30-second manual-mode timeout and the 24-hour re-run of the purge.
- Style sheets (`addCustomStyles`, `createStyleRules`) are reduced to the `RebuildStyles` effect. The floating button is a boolean, and its icon and tooltip are not modelled.
- The current time and local midnight are inputs. Time-zone computation is not modelled.
- URL parsing (`new URL(...).hostname`, including its exception on a malformed URL) is left out. The link's host is an input.
- Selector quoting is left out: the page selects `a[href="url"]` by exact attribute equality, and a URL containing a quote (which would break the selector) is not modelled.
- Options.Normalise: trimming and lower-casing are ASCII-only, and Unicode white space and case mapping are not modelled.
- `parseInt` on the form's selects is taken to return an integer. NaN is not modelled.
- Calling `addManualMark` while manual mode is already active stacks a second set of listeners in the source. The model keeps one selection and replaces it.
- The incognito-window check before `registerVisit` is left out, and so is the `onInstalled` welcome tab.
- Context-menu creation (`createContextMenus`) is left out. The menu items are the `MenuItem` values.
- The page flag's storage key (`page_marking:` plus the page URL) is left out. The stored flag for the current page is an input, and its write is the `StorePageFlag` effect.
- `popup.js` and `welcome.js` are not part of this model beyond the messages they send and the write cited for `Config.OverlayMerge`. The options page's load, render and reset-all handlers are also not modelled.
- Ledger.Survivors: the retention window uses unbounded integers. JavaScript's floating-point arithmetic, and a non-numeric `customRetentionTime`, are not modelled.

## Findings

| source | as written | input that shows it | evidently intended | confidence | as-written member | corrected member |
|---|---|---|---|---|---|---|
| content.js:57-58, 81 | The start-up read passes the content script's own settings object as the defaults. That object has no `showControlButton` key, so the key never comes back, and the floating button is never added at start-up. The popup's `applySettings` payload never carries the key either. | The synced store holds `showControlButton: true`, which is also the default of the background and options scripts. | Read `showControlButton` with the other settings, defaulting to true, so the button appears as the options page promises. | medium, not executed | Lifecycle.ReadSettingsAsWritten, Lifecycle.Init, Lifecycle.ButtonAtStartUp | Lifecycle.ReadSettings, Lifecycle.InitIntended |

=== FILE: background.dfy ===
/** The background script: the ledger write for history visits
    (`registerVisit`), the daily purge (`setupAutoCleaning`), the start-up
    auto-enable rule, and the mapping of context-menu clicks and keyboard
    commands to messages for the page. Storage reads are parameters; the
    writes are results. */
module Background {
  import opened Wrappers
  import opened Strings
  import opened Config
  import opened Classifier
  import opened Ledger
  import opened Exclusion
  import Router
  import ManualMark
  import M = Marking

  /** The purge loop: every entry older than `cutoff` is deleted, and
      `changed` reports whether anything was. */
  method PurgeExpired(ledger: Visits, cutoff: int) returns (kept: Visits, changed: bool)
    ensures forall u :: u in kept <==> u in ledger && ledger[u] >= cutoff
    ensures forall u :: u in kept ==> kept[u] == ledger[u]
    ensures kept == KeepSince(ledger, cutoff)
    ensures changed <==> HasExpired(ledger, cutoff)
  {
    kept := ledger;
    changed := false;
    var todo := ledger.Keys;
    while todo != {}
      invariant todo <= ledger.Keys
      invariant forall u :: u in kept <==> u in ledger && (u in todo || ledger[u] >= cutoff)
      invariant forall u :: u in kept ==> kept[u] == ledger[u]
      invariant changed <==> exists u :: u in ledger && u !in todo && ledger[u] < cutoff
      decreases todo
    {
      var u :| u in todo;
      if ledger[u] < cutoff {
        kept := kept - {u};
        changed := true;
      }
      todo := todo - {u};
    }
  }

  /** One run of `setupAutoCleaning`: with `autoClean` on, the stored ledger
      loses exactly the entries older than `cleanPeriod` days, and it is
      written back only if something was removed; with it off, nothing
      happens. */
  method SetupAutoCleaning(settings: Settings, ledger: Visits, now: int) returns (stored: Visits, written: bool)
    ensures !settings.autoClean ==> stored == ledger && !written
    ensures settings.autoClean ==>
              forall u :: u in ledger ==> (u in stored <==> ledger[u] >= now - settings.cleanPeriod * Day)
    ensures stored.Keys <= ledger.Keys && forall u :: u in stored ==> stored[u] == ledger[u]
    ensures written <==> settings.autoClean && HasExpired(ledger, now - settings.cleanPeriod * Day)
    ensures !written ==> stored == ledger
  {
    stored, written := ledger, false;
    if settings.autoClean {
      var cutoff := now - settings.cleanPeriod * Day;
      var kept, changed := PurgeExpired(ledger, cutoff);
      if changed {
        stored, written := kept, true;
      }
    }
  }

  /** Purging twice at the same time is purging once, and the second purge
      finds nothing to remove, so it writes nothing. */
  lemma PurgeIdempotent(ledger: Visits, cutoff: int)
    ensures KeepSince(KeepSince(ledger, cutoff), cutoff) == KeepSince(ledger, cutoff)
    ensures !HasExpired(KeepSince(ledger, cutoff), cutoff)
  {
  }

  /** The auto-enable rule of `initializeExtension`: the store write made at
      browser start (`NoKeys` for none). */
  function AutoEnableWrite(s: Settings): (w: Patch)
    ensures w != NoKeys <==> s.autoEnable && !s.enabled
    ensures Overlay(s, w).enabled == (s.enabled || s.autoEnable)
    ensures forall f :: f != EnabledKey ==> Overlay(s, w).Get(f) == s.Get(f)
  {
    if s.autoEnable && !s.enabled then NoKeys.(enabled := Some(true)) else NoKeys
  }

  datatype MenuItem =
    | ForceMark | IgnoreLinkItem | IgnoreSite | TogglePageMarks
    | DisablePageItem | EnablePageItem | OtherItem

  /** A message to the content script of tab `tab`. */
  datatype Outgoing = Outgoing(tab: int, message: Router.Message)

  /** The ledger and exclusion list after a menu click, and the messages sent. */
  datatype MenuOutcome = MenuOutcome(ledger: Visits, excludeSites: seq<string>, sent: seq<Outgoing>)

  /** `handleContextMenuClick`. `linkUrl` is the clicked link ("" when the
      menu was opened on the page), `linkHost` its host name, `sites` the
      stored exclusion list. */
  function HandleContextMenuClick(item: MenuItem, linkUrl: string, linkHost: string, tab: int,
                                  ledger: Visits, sites: seq<string>, now: int): (r: MenuOutcome)
    ensures item != ForceMark ==> r.ledger == ledger
    ensures item != IgnoreSite ==> r.excludeSites == sites
    ensures item == ForceMark ==>
              if linkUrl == "" then r == MenuOutcome(ledger, sites, [])
              else r.ledger == RegisterVisit(ledger, linkUrl, now) && r.sent == [Outgoing(tab, Router.ForceMarkLink(linkUrl))]
    ensures item == IgnoreSite && linkUrl != "" ==>
              if linkHost in sites then r == MenuOutcome(ledger, sites, [])
              else r.excludeSites == sites + [linkHost] && r.sent == [Outgoing(tab, Router.SiteMuted(linkHost))]
    ensures item == IgnoreSite && linkUrl == "" ==> r == MenuOutcome(ledger, sites, [])
    ensures item == IgnoreLinkItem ==> r.sent == [Outgoing(tab, Router.IgnoreLink(linkUrl))]
    ensures item == TogglePageMarks ==> r.sent == [Outgoing(tab, Router.ToggleVisibility)]
    ensures item == DisablePageItem ==> r.sent == [Outgoing(tab, Router.DisablePage)]
    ensures item == EnablePageItem ==> r.sent == [Outgoing(tab, Router.EnablePage)]
    ensures item == OtherItem ==> r.sent == []
  {
    match item
    case ForceMark =>
      if linkUrl == "" then MenuOutcome(ledger, sites, [])
      else MenuOutcome(RegisterVisit(ledger, linkUrl, now), sites, [Outgoing(tab, Router.ForceMarkLink(linkUrl))])
    case IgnoreLinkItem => MenuOutcome(ledger, sites, [Outgoing(tab, Router.IgnoreLink(linkUrl))])
    case IgnoreSite =>
      if linkUrl == "" || linkHost in sites then MenuOutcome(ledger, sites, [])
      else MenuOutcome(ledger, sites + [linkHost], [Outgoing(tab, Router.SiteMuted(linkHost))])
    case TogglePageMarks => MenuOutcome(ledger, sites, [Outgoing(tab, Router.ToggleVisibility)])
    case DisablePageItem => MenuOutcome(ledger, sites, [Outgoing(tab, Router.DisablePage)])
    case EnablePageItem => MenuOutcome(ledger, sites, [Outgoing(tab, Router.EnablePage)])
    case OtherItem => MenuOutcome(ledger, sites, [])
  }

  /** "Ignore this site" leaves the link's host, and all its subdomains,
      excluded; existing entries keep their order; repeating it changes
      nothing and sends nothing. */
  lemma IgnoreSiteExcludesHost(linkUrl: string, linkHost: string, tab: int, ledger: Visits,
                               sites: seq<string>, now: int, sub: string)
    requires linkUrl != ""
    ensures var r := HandleContextMenuClick(IgnoreSite, linkUrl, linkHost, tab, ledger, sites, now);
            && IsExcluded(linkHost, r.excludeSites)
            && IsExcluded(sub + "." + linkHost, r.excludeSites)
            && r.excludeSites[..|sites|] == sites
            && HandleContextMenuClick(IgnoreSite, linkUrl, linkHost, tab, ledger, r.excludeSites, now)
               == MenuOutcome(ledger, r.excludeSites, [])
  {
    var r := HandleContextMenuClick(IgnoreSite, linkUrl, linkHost, tab, ledger, sites, now);
    AppendExcludes(linkHost, sites, linkHost);
    if linkHost in sites {
      var i :| 0 <= i < |sites| && sites[i] == linkHost;
      assert Matches(linkHost, sites[i]);
    }
    assert linkHost in r.excludeSites by {
      if linkHost !in sites { assert r.excludeSites[|sites|] == linkHost; }
    }
    SubdomainExcluded(sub, linkHost, r.excludeSites);
  }

  /** "Force mark" end to end: the ledger records the link at `now`, and the
      page receiving the message marks every element with that href
      attribute Recent, even with page marking off. */
  lemma ForceMarkEndToEnd(linkUrl: string, tab: int, ledger: Visits, sites: seq<string>,
                          s: M.PageState, page: seq<M.Anchor>, c: M.Clock)
    requires linkUrl != "" && IsHttp(linkUrl)
    ensures var r := HandleContextMenuClick(ForceMark, linkUrl, "", tab, ledger, sites, c.now);
            var p := Router.Handle(s, r.sent[0].message, page, c).state;
            && r.ledger[linkUrl] == c.now
            && forall id :: id in M.Selected(page, linkUrl) ==>
                 id in p.applied && id in p.marks && p.marks[id].tier == Recent
  {
    ClassifyNow(c.now, c.midnight);
  }

  datatype Command = ToggleMarks | AddMark | OtherCommand

  /** `handleCommands`: the shortcut's message for the first active tab;
      nothing when there is no active tab or the command is unknown. */
  function HandleCommand(command: Command, tabs: seq<int>): (sent: seq<Outgoing>)
    ensures |tabs| == 0 || command == OtherCommand <==> sent == []
    ensures command == ToggleMarks && |tabs| > 0 ==> sent == [Outgoing(tabs[0], Router.ToggleVisibility)]
    ensures command == AddMark && |tabs| > 0 ==> sent == [Outgoing(tabs[0], Router.AddManualMark)]
  {
    if |tabs| == 0 then []
    else
      match command
      case ToggleMarks => [Outgoing(tabs[0], Router.ToggleVisibility)]
      case AddMark => [Outgoing(tabs[0], Router.AddManualMark)]
      case OtherCommand => []
  }

  /** The shortcuts end to end: Alt+H pressed twice leaves the page as it
      was, and Alt+J puts the page into manual-mark mode over its http
      links with nothing highlighted. */
  lemma ShortcutsReachPage(tabs: seq<int>, s: M.PageState, page: seq<M.Anchor>, c: M.Clock)
    requires |tabs| > 0 && M.Valid(s)
    ensures var m := HandleCommand(ToggleMarks, tabs)[0].message;
            Router.Handle(Router.Handle(s, m, page, c).state, m, page, c).state == s
    ensures Router.Handle(s, HandleCommand(AddMark, tabs)[0].message, page, c).state.selecting
            == Some(M.Selection(ManualMark.MarkableLinks(page), None))
  {
    Router.ToggleMessageTwice(s, page, c);
  }
}

=== FILE: classifier.dfy ===
/** The recency classifier of content.js (`getVisitTimeCategory`): a visit
    time falls in exactly one of three tiers relative to the current time and
    the start of the current local day. Both times are parameters; computing
    local midnight from the time zone is outside the model. */
module Classifier {

  const Hour: int := 60 * 60 * 1000
  const Day: int := 24 * Hour

  datatype Tier = Recent | Today | Earlier

  /** Styling precedence: Recent > Today > Earlier. */
  function Rank(t: Tier): nat {
    match t
    case Recent => 2
    case Today => 1
    case Earlier => 0
  }

  /** The tier of a visit made at `visitedAt`, seen at `now`, when the local
      day began at `midnight` (all in milliseconds). */
  function Classify(visitedAt: int, now: int, midnight: int): (tier: Tier)
    ensures tier == Recent <==> now - visitedAt < Hour
    ensures tier == Today <==> now - visitedAt >= Hour && visitedAt >= midnight
    ensures tier == Earlier <==> now - visitedAt >= Hour && visitedAt < midnight
  {
    if now - visitedAt < Hour then Recent
    else if visitedAt >= midnight then Today
    else Earlier
  }

  /** Time passing never raises a link's tier: for a fixed visit and day start,
      a later `now` gives the same or a lower tier, so a link never moves back
      to Recent. */
  lemma ClassifyMonotone(visitedAt: int, now1: int, now2: int, midnight: int)
    requires now1 <= now2
    ensures Rank(Classify(visitedAt, now2, midnight)) <= Rank(Classify(visitedAt, now1, midnight))
    ensures Classify(visitedAt, now2, midnight) == Recent ==> Classify(visitedAt, now1, midnight) == Recent
  {
  }

  /** A visit classified at the moment it is made is Recent. */
  lemma ClassifyNow(now: int, midnight: int)
    ensures Classify(now, now, midnight) == Recent
  {
  }

  /** The timeline of one visit at `t`, made during the day that began at
      `midnight`: Recent half an hour later, Today two hours later while still
      the same day, Earlier a day later once the next day has begun. */
  lemma VisitTimeline(t: int, midnight: int)
    requires midnight <= t && t + 2 * Hour < midnight + Day
    ensures Classify(t, t + 30 * 60 * 1000, midnight) == Recent
    ensures Classify(t, t + 2 * Hour, midnight) == Today
    ensures Classify(t, t + 25 * Hour, midnight + Day) == Earlier
  {
  }
}

=== FILE: config.dfy ===
/** The extension's settings: the keys of the synced store, the defaults each
    script supplies when reading it, and the two ways objects of settings are
    combined (`{...a, ...b}` in memory, `storage.set` in the store). */
module Config {
  import opened Wrappers

  datatype MarkStyle = Border | Background | Underline | OtherStyle

  /** `historyMode`; any string other than the three known ones is `OtherMode`. */
  datatype HistoryMode = AllTime | SessionOnly | CustomDays | OtherMode

  datatype Colors = Colors(recent: string, today: string, earlier: string)

  /** A complete settings object, every key present. */
  datatype Settings = Settings(
    enabled: bool,
    showCurrentPage: bool,
    markStyle: MarkStyle,
    colors: Colors,
    historyMode: HistoryMode,
    customRetentionTime: int,
    autoClean: bool,
    cleanPeriod: int,
    excludeSites: seq<string>,
    autoEnable: bool,
    showControlButton: bool)
  {
    /** The value stored under key `f`. */
    function Get(f: Field): Value {
      match f
      case EnabledKey => Flag(enabled)
      case ShowCurrentPageKey => Flag(showCurrentPage)
      case MarkStyleKey => Style(markStyle)
      case ColorsKey => Palette(colors)
      case HistoryModeKey => Mode(historyMode)
      case CustomRetentionTimeKey => Number(customRetentionTime)
      case AutoCleanKey => Flag(autoClean)
      case CleanPeriodKey => Number(cleanPeriod)
      case ExcludeSitesKey => Sites(excludeSites)
      case AutoEnableKey => Flag(autoEnable)
      case ShowControlButtonKey => Flag(showControlButton)
    }
  }

  /** A partial settings object: the contents of the synced store, an
      `applySettings` payload, or a `storage.set` argument. Absent keys are `None`. */
  datatype Patch = Patch(
    enabled: Option<bool>,
    showCurrentPage: Option<bool>,
    markStyle: Option<MarkStyle>,
    colors: Option<Colors>,
    historyMode: Option<HistoryMode>,
    customRetentionTime: Option<int>,
    autoClean: Option<bool>,
    cleanPeriod: Option<int>,
    excludeSites: Option<seq<string>>,
    autoEnable: Option<bool>,
    showControlButton: Option<bool>)
  {
    /** The value under key `f`, if the key is present. */
    function Lookup(f: Field): Option<Value> {
      match f
      case EnabledKey => if enabled.Some? then Some(Flag(enabled.value)) else None
      case ShowCurrentPageKey => if showCurrentPage.Some? then Some(Flag(showCurrentPage.value)) else None
      case MarkStyleKey => if markStyle.Some? then Some(Style(markStyle.value)) else None
      case ColorsKey => if colors.Some? then Some(Palette(colors.value)) else None
      case HistoryModeKey => if historyMode.Some? then Some(Mode(historyMode.value)) else None
      case CustomRetentionTimeKey => if customRetentionTime.Some? then Some(Number(customRetentionTime.value)) else None
      case AutoCleanKey => if autoClean.Some? then Some(Flag(autoClean.value)) else None
      case CleanPeriodKey => if cleanPeriod.Some? then Some(Number(cleanPeriod.value)) else None
      case ExcludeSitesKey => if excludeSites.Some? then Some(Sites(excludeSites.value)) else None
      case AutoEnableKey => if autoEnable.Some? then Some(Flag(autoEnable.value)) else None
      case ShowControlButtonKey => if showControlButton.Some? then Some(Flag(showControlButton.value)) else None
    }
  }

  datatype Field =
    | EnabledKey | ShowCurrentPageKey | MarkStyleKey | ColorsKey | HistoryModeKey
    | CustomRetentionTimeKey | AutoCleanKey | CleanPeriodKey | ExcludeSitesKey
    | AutoEnableKey | ShowControlButtonKey

  datatype Value =
    | Flag(b: bool) | Number(n: int) | Style(style: MarkStyle) | Palette(palette: Colors)
    | Mode(mode: HistoryMode) | Sites(sites: seq<string>)

  const NoKeys := Patch(None, None, None, None, None, None, None, None, None, None, None)

  const DefaultColors := Colors("#FF0000", "#FFA500", "#90EE90")

  /** `DEFAULT_SETTINGS` of the background script. */
  const BackgroundDefaults := Settings(
    enabled := true, showCurrentPage := true, markStyle := Border, colors := DefaultColors,
    historyMode := AllTime, customRetentionTime := 7, autoClean := false, cleanPeriod := 7,
    excludeSites := [], autoEnable := true, showControlButton := true)

  /** The content script's initial `settings`. Its object names only the seven
      keys in `ContentKeys`; the other four read as `undefined`, which every use
      treats as false (or 0). */
  const ContentDefaults := Settings(
    enabled := true, showCurrentPage := true, markStyle := Border, colors := DefaultColors,
    historyMode := AllTime, customRetentionTime := 7, autoClean := false, cleanPeriod := 0,
    excludeSites := [], autoEnable := false, showControlButton := false)

  const ContentKeys: set<Field> :=
    {EnabledKey, ShowCurrentPageKey, MarkStyleKey, ColorsKey, HistoryModeKey,
     CustomRetentionTimeKey, ExcludeSitesKey}

  /** The options page's default exclusion list. */
  const OptionsDefaultSites: seq<string> := ["example.com", "mail.google.com"]

  /** `{...s, ...p}`, field by field. */
  function Spread(s: Settings, p: Patch): Settings {
    Settings(
      p.enabled.GetOr(s.enabled),
      p.showCurrentPage.GetOr(s.showCurrentPage),
      p.markStyle.GetOr(s.markStyle),
      p.colors.GetOr(s.colors),
      p.historyMode.GetOr(s.historyMode),
      p.customRetentionTime.GetOr(s.customRetentionTime),
      p.autoClean.GetOr(s.autoClean),
      p.cleanPeriod.GetOr(s.cleanPeriod),
      p.excludeSites.GetOr(s.excludeSites),
      p.autoEnable.GetOr(s.autoEnable),
      p.showControlButton.GetOr(s.showControlButton))
  }

  lemma SpreadLookup(s: Settings, p: Patch, f: Field)
    ensures Spread(s, p).Get(f) == if p.Lookup(f).Some? then p.Lookup(f).value else s.Get(f)
  {
    match f
    case EnabledKey =>
    case ShowCurrentPageKey =>
    case MarkStyleKey =>
    case ColorsKey =>
    case HistoryModeKey =>
    case CustomRetentionTimeKey =>
    case AutoCleanKey =>
    case CleanPeriodKey =>
    case ExcludeSitesKey =>
    case AutoEnableKey =>
    case ShowControlButtonKey =>
  }

  /** `{...s, ...p}`: every key present in `p` replaces the one in `s`, every
      other key keeps its value. */
  function Overlay(s: Settings, p: Patch): (r: Settings)
    ensures forall f :: p.Lookup(f).Some? ==> r.Get(f) == p.Lookup(f).value
    ensures forall f :: p.Lookup(f).None? ==> r.Get(f) == s.Get(f)
  {
    var r := Spread(s, p);
    assert forall f :: r.Get(f) == if p.Lookup(f).Some? then p.Lookup(f).value else s.Get(f) by {
      forall f ensures r.Get(f) == if p.Lookup(f).Some? then p.Lookup(f).value else s.Get(f) {
        SpreadLookup(s, p, f);
      }
    }
    r
  }

  /** `storage.set(q)` on a store holding `p`: keys of `q` are written, the rest kept. */
  function Merge(p: Patch, q: Patch): Patch
  {
    Patch(
      if q.enabled.Some? then q.enabled else p.enabled,
      if q.showCurrentPage.Some? then q.showCurrentPage else p.showCurrentPage,
      if q.markStyle.Some? then q.markStyle else p.markStyle,
      if q.colors.Some? then q.colors else p.colors,
      if q.historyMode.Some? then q.historyMode else p.historyMode,
      if q.customRetentionTime.Some? then q.customRetentionTime else p.customRetentionTime,
      if q.autoClean.Some? then q.autoClean else p.autoClean,
      if q.cleanPeriod.Some? then q.cleanPeriod else p.cleanPeriod,
      if q.excludeSites.Some? then q.excludeSites else p.excludeSites,
      if q.autoEnable.Some? then q.autoEnable else p.autoEnable,
      if q.showControlButton.Some? then q.showControlButton else p.showControlButton)
  }

  /** The keys of `p` named in `keys`: what `storage.get(defaults)` returns of
      the store when `defaults` names exactly `keys`. */
  function Restrict(p: Patch, keys: set<Field>): Patch
  {
    Patch(
      if EnabledKey in keys then p.enabled else None,
      if ShowCurrentPageKey in keys then p.showCurrentPage else None,
      if MarkStyleKey in keys then p.markStyle else None,
      if ColorsKey in keys then p.colors else None,
      if HistoryModeKey in keys then p.historyMode else None,
      if CustomRetentionTimeKey in keys then p.customRetentionTime else None,
      if AutoCleanKey in keys then p.autoClean else None,
      if CleanPeriodKey in keys then p.cleanPeriod else None,
      if ExcludeSitesKey in keys then p.excludeSites else None,
      if AutoEnableKey in keys then p.autoEnable else None,
      if ShowControlButtonKey in keys then p.showControlButton else None)
  }

  /** Each key of a merge comes from the later write if present there. */
  lemma MergeLookup(p: Patch, q: Patch, f: Field)
    ensures Merge(p, q).Lookup(f) == if q.Lookup(f).Some? then q.Lookup(f) else p.Lookup(f)
  {
    match f
    case EnabledKey =>
    case ShowCurrentPageKey =>
    case MarkStyleKey =>
    case ColorsKey =>
    case HistoryModeKey =>
    case CustomRetentionTimeKey =>
    case AutoCleanKey =>
    case CleanPeriodKey =>
    case ExcludeSitesKey =>
    case AutoEnableKey =>
    case ShowControlButtonKey =>
  }

  /** A restricted read keeps exactly the named keys. */
  lemma RestrictLookup(p: Patch, keys: set<Field>, f: Field)
    ensures Restrict(p, keys).Lookup(f) == if f in keys then p.Lookup(f) else None
  {
    match f
    case EnabledKey =>
    case ShowCurrentPageKey =>
    case MarkStyleKey =>
    case ColorsKey =>
    case HistoryModeKey =>
    case CustomRetentionTimeKey =>
    case AutoCleanKey =>
    case CleanPeriodKey =>
    case ExcludeSitesKey =>
    case AutoEnableKey =>
    case ShowControlButtonKey =>
  }

  lemma GetInjective(s: Settings, t: Settings)
    requires forall f :: s.Get(f) == t.Get(f)
    ensures s == t
  {
    assert s.Get(EnabledKey) == t.Get(EnabledKey);
    assert s.Get(ShowCurrentPageKey) == t.Get(ShowCurrentPageKey);
    assert s.Get(MarkStyleKey) == t.Get(MarkStyleKey);
    assert s.Get(ColorsKey) == t.Get(ColorsKey);
    assert s.Get(HistoryModeKey) == t.Get(HistoryModeKey);
    assert s.Get(CustomRetentionTimeKey) == t.Get(CustomRetentionTimeKey);
    assert s.Get(AutoCleanKey) == t.Get(AutoCleanKey);
    assert s.Get(CleanPeriodKey) == t.Get(CleanPeriodKey);
    assert s.Get(ExcludeSitesKey) == t.Get(ExcludeSitesKey);
    assert s.Get(AutoEnableKey) == t.Get(AutoEnableKey);
    assert s.Get(ShowControlButtonKey) == t.Get(ShowControlButtonKey);
  }

  /** Spreading two patches in turn is spreading their store-merge once: an
      in-memory copy that replays every `storage.set` stays equal to a fresh read. */
  lemma {:induction false} OverlayMerge(s: Settings, p: Patch, q: Patch)
    ensures Overlay(Overlay(s, p), q) == Overlay(s, Merge(p, q))
  {
    var a := Overlay(Overlay(s, p), q);
    var b := Overlay(s, Merge(p, q));
    forall f ensures a.Get(f) == b.Get(f) {
      MergeLookup(p, q, f);
    }
    GetInjective(a, b);
  }

  /** Spreading the same patch twice changes nothing the second time. */
  lemma OverlayIdempotent(s: Settings, p: Patch)
    ensures Overlay(Overlay(s, p), p) == Overlay(s, p)
  {
    var a := Overlay(Overlay(s, p), p);
    forall f ensures a.Get(f) == Overlay(s, p).Get(f) {
    }
    GetInjective(a, Overlay(s, p));
  }
}

=== FILE: domain.dfy ===
/** The domain format the options page accepts for the exclusion list:
    `^([a-z0-9]+(-[a-z0-9]+)*\.)+[a-z]{2,}$`. */
module Domain {
  import opened Strings

  predicate IsAlnum(c: char) {
    'a' <= c <= 'z' || '0' <= c <= '9'
  }

  predicate IsLetter(c: char) {
    'a' <= c <= 'z'
  }

  /** `[a-z0-9]+(-[a-z0-9]+)*`: runs of lower-case letters and digits joined
      by single hyphens — non-empty, no hyphen at either end, no two hyphens
      in a row. */
  predicate IsLabel(l: string) {
    && |l| > 0
    && (forall i :: 0 <= i < |l| ==> IsAlnum(l[i]) || l[i] == '-')
    && l[0] != '-' && l[|l| - 1] != '-'
    && (forall i :: 0 <= i < |l| - 1 ==> !(l[i] == '-' && l[i + 1] == '-'))
  }

  /** `[a-z]{2,}` */
  predicate IsTopLabel(t: string) {
    |t| >= 2 && forall i :: 0 <= i < |t| ==> IsLetter(t[i])
  }

  /** The regular expression, decided on the dot-separated pieces: at least
      two pieces, every piece but the last a label, the last a top label.
      Labels hold no dot, so the pieces are exactly the regex's groups. */
  predicate IsDomain(s: string) {
    var parts := Split(s, '.');
    && |parts| >= 2
    && (forall i :: 0 <= i < |parts| - 1 ==> IsLabel(parts[i]))
    && IsTopLabel(parts[|parts| - 1])
  }

  /** Every string the regular expression generates — one or more labels
      each followed by a dot, then a top label — is accepted. */
  lemma {:induction false} GeneratedDomainsAccepted(labels: seq<string>, top: string)
    requires |labels| >= 1 && forall i :: 0 <= i < |labels| ==> IsLabel(labels[i])
    requires IsTopLabel(top)
    ensures IsDomain(Join(labels + [top], '.'))
  {
    var parts := labels + [top];
    forall i | 0 <= i < |parts| ensures '.' !in parts[i] {
      if i < |labels| {
        assert parts[i] == labels[i];
        assert forall k :: 0 <= k < |labels[i]| ==> labels[i][k] != '.';
      } else {
        assert forall k :: 0 <= k < |top| ==> top[k] != '.';
      }
    }
    SplitJoin(parts, '.');
    assert forall i :: 0 <= i < |parts| - 1 ==> parts[i] == labels[i];
  }

  /** Every accepted string is generated that way: it is one or more labels
      and a top label joined by dots. */
  lemma AcceptedDomainsGenerated(s: string)
    requires IsDomain(s)
    ensures exists labels: seq<string>, top: string ::
              && |labels| >= 1 && (forall i :: 0 <= i < |labels| ==> IsLabel(labels[i]))
              && IsTopLabel(top) && s == Join(labels + [top], '.')
  {
    var parts := Split(s, '.');
    var labels, top := parts[..|parts| - 1], parts[|parts| - 1];
    assert labels + [top] == parts;
    assert forall i :: 0 <= i < |labels| ==> labels[i] == parts[i];
    assert s == Join(labels + [top], '.');
  }

  /** A domain has no white space and no upper-case letter, so the options
      page's normalisation leaves it unchanged. */
  lemma DomainHasNoSpaceOrUpper(s: string)
    requires IsDomain(s)
    ensures forall i :: 0 <= i < |s| ==> !IsSpace(s[i]) && !('A' <= s[i] <= 'Z')
  {
    var parts := Split(s, '.');
    forall i | 0 <= i < |s| ensures !IsSpace(s[i]) && !('A' <= s[i] <= 'Z') {
      JoinChars(parts, '.', i);
    }
  }

  /** A character of a joined string is the separator or a character of a piece. */
  lemma {:induction false} JoinChars(parts: seq<string>, sep: char, i: int)
    requires |parts| > 0 && 0 <= i < |Join(parts, sep)|
    ensures Join(parts, sep)[i] == sep || exists k, j :: 0 <= k < |parts| && 0 <= j < |parts[k]| && parts[k][j] == Join(parts, sep)[i]
    decreases |parts|
  {
    var s := Join(parts, sep);
    if |parts| > 1 {
      if i < |parts[0]| {
        assert s[i] == parts[0][i];
      } else if i > |parts[0]| {
        var rest := Join(parts[1..], sep);
        assert s[i] == rest[i - |parts[0]| - 1];
        JoinChars(parts[1..], sep, i - |parts[0]| - 1);
        if rest[i - |parts[0]| - 1] != sep {
          var k, j :| 0 <= k < |parts[1..]| && 0 <= j < |parts[1..][k]| && parts[1..][k][j] == rest[i - |parts[0]| - 1];
          assert parts[k + 1][j] == s[i];
        }
      }
    } else {
      assert s[i] == parts[0][i];
    }
  }
}

=== FILE: exclusion.dfy ===
/** The site exclusion predicate of content.js (`isCurrentSiteExcluded`): a
    host is excluded when it equals a listed domain or is a subdomain of one. */
module Exclusion {
  import opened Strings

  /** `host === site || host.endsWith('.' + site)` */
  predicate Matches(host: string, site: string) {
    host == site || EndsWith(host, "." + site)
  }

  /** `excludeSites.some(...)`, scanning the list from the front. */
  function IsExcluded(host: string, sites: seq<string>): (r: bool)
    ensures r <==> exists i :: 0 <= i < |sites| && Matches(host, sites[i])
    decreases |sites|
  {
    if |sites| == 0 then false
    else if Matches(host, sites[0]) then true
    else
      var rest := IsExcluded(host, sites[1..]);
      assert forall i :: 1 <= i < |sites| ==> sites[i] == sites[1..][i - 1];
      rest
  }

  /** Every subdomain of an excluded host is excluded. */
  lemma SubdomainExcluded(name: string, host: string, sites: seq<string>)
    requires IsExcluded(host, sites)
    ensures IsExcluded(name + "." + host, sites)
  {
    var i :| 0 <= i < |sites| && Matches(host, sites[i]);
    var sub := name + "." + host;
    if host == sites[i] {
      assert sub == name + ("." + sites[i]);
      assert EndsWith(sub, "." + sites[i]);
    } else {
      assert sub == (name + ".") + host;
      EndsWithPrepend(name + ".", host, "." + sites[i]);
    }
    assert Matches(sub, sites[i]);
  }

  /** Appending a domain to the list excludes that domain and keeps every
      earlier exclusion. */
  lemma AppendExcludes(host: string, sites: seq<string>, site: string)
    ensures IsExcluded(site, sites + [site])
    ensures IsExcluded(host, sites) ==> IsExcluded(host, sites + [site])
  {
    assert (sites + [site])[|sites|] == site;
    if IsExcluded(host, sites) {
      var i :| 0 <= i < |sites| && Matches(host, sites[i]);
      assert (sites + [site])[i] == sites[i];
    }
  }
}

=== FILE: ledger.dfy ===
/** The visit ledger: URL -> last visit time (ms), as kept under the local
    store key `visitedLinks` and mirrored in each page's `visitedLinks` map.
    This module holds the retention rules and the single-visit write. */
module Ledger {
  import opened Strings
  import opened Config
  import opened Classifier

  type Visits = map<string, int>

  /** The entries of `m` visited at or after `cutoff`, with their times. */
  function KeepSince(m: Visits, cutoff: int): (r: Visits)
    ensures r.Keys <= m.Keys
    ensures forall u :: u in r ==> r[u] == m[u]
  {
    map u | u in m && m[u] >= cutoff :: m[u]
  }

  /** True when some entry of `m` is older than `cutoff`. */
  predicate HasExpired(m: Visits, cutoff: int) {
    exists u :: u in m && m[u] < cutoff
  }

  /** The retention window, in days, for a history mode other than all-time
      and session: `customRetentionTime` in custom mode, seven days otherwise. */
  function RetentionDays(mode: HistoryMode, customDays: int): int {
    if mode == CustomDays then customDays else 7
  }

  /** The stored entries a page load keeps (`loadVisitedLinks`): everything in
      all-time mode, nothing in session mode, and otherwise exactly the entries
      no older than the window, an entry exactly at the cutoff included. */
  function Survivors(stored: Visits, mode: HistoryMode, customDays: int, now: int): (r: Visits)
    ensures r.Keys <= stored.Keys
    ensures forall u :: u in r ==> r[u] == stored[u]
    ensures mode == AllTime ==> r == stored
    ensures mode == SessionOnly ==> r == map[]
    ensures mode != AllTime && mode != SessionOnly ==>
              forall u :: u in stored ==> (u in r <==> stored[u] >= now - RetentionDays(mode, customDays) * Day)
  {
    match mode
    case AllTime => stored
    case SessionOnly => map[]
    case _ => KeepSince(stored, now - RetentionDays(mode, customDays) * Day)
  }

  /** A page load merges the survivors into the in-memory map: survivors take
      their stored time, every other in-memory entry is kept as it was. */
  function Load(visited: Visits, stored: Visits, mode: HistoryMode, customDays: int, now: int): (r: Visits)
    ensures visited.Keys <= r.Keys
    ensures forall u :: u in r <==> u in visited || u in Survivors(stored, mode, customDays, now)
    ensures forall u :: u in Survivors(stored, mode, customDays, now) ==> r[u] == stored[u]
    ensures forall u :: u in visited && u !in Survivors(stored, mode, customDays, now) ==> r[u] == visited[u]
  {
    visited + Survivors(stored, mode, customDays, now)
  }

  /** In custom mode, an entry exactly `customDays` days old is still loaded and
      one a millisecond older is not. */
  lemma CustomCutoffBoundary(stored: Visits, u: string, customDays: int, now: int)
    requires u in stored
    ensures stored[u] == now - customDays * Day ==> u in Survivors(stored, CustomDays, customDays, now)
    ensures stored[u] == now - customDays * Day - 1 ==> u !in Survivors(stored, CustomDays, customDays, now)
  {
  }

  /** A longer custom window keeps every entry a shorter one keeps. */
  lemma WiderWindowKeepsMore(stored: Visits, days1: int, days2: int, now: int)
    requires days1 <= days2
    ensures Survivors(stored, CustomDays, days1, now).Keys <= Survivors(stored, CustomDays, days2, now).Keys
  {
    forall u | u in Survivors(stored, CustomDays, days1, now)
      ensures u in Survivors(stored, CustomDays, days2, now)
    {
      assert days1 * Day <= days2 * Day;
    }
  }

  /** The background purge never takes away anything a later page load would
      show: if it ran no later than the load with a clean period at least the
      load's retention window, loading from the purged ledger gives the same
      entries as loading from the unpurged one (not so in all-time mode,
      which shows everything). */
  lemma {:induction false} PurgeInvisibleToLoad(stored: Visits, cleanPeriod: int, purgedAt: int,
                                                mode: HistoryMode, customDays: int, now: int)
    requires mode != AllTime
    requires purgedAt <= now && RetentionDays(mode, customDays) <= cleanPeriod
    ensures Survivors(KeepSince(stored, purgedAt - cleanPeriod * Day), mode, customDays, now)
         == Survivors(stored, mode, customDays, now)
  {
    var purged := KeepSince(stored, purgedAt - cleanPeriod * Day);
    if mode != SessionOnly {
      var cutoff := now - RetentionDays(mode, customDays) * Day;
      assert RetentionDays(mode, customDays) * Day <= cleanPeriod * Day;
      assert purgedAt - cleanPeriod * Day <= cutoff;
      var a := Survivors(purged, mode, customDays, now);
      var b := Survivors(stored, mode, customDays, now);
      forall u | u in b ensures u in a {
        assert u in purged;
      }
      assert a.Keys == b.Keys;
    }
  }

  /** `registerVisit`: a non-http URL leaves the ledger alone; otherwise the URL
      is set to `now` and every other key keeps its time. */
  function RegisterVisit(ledger: Visits, url: string, now: int): (r: Visits)
    ensures !IsHttp(url) ==> r == ledger
    ensures IsHttp(url) ==> url in r && r[url] == now && r.Keys == ledger.Keys + {url}
    ensures forall u :: u in ledger && u != url ==> u in r && r[u] == ledger[u]
  {
    if IsHttp(url) then ledger[url := now] else ledger
  }

  /** The newest write wins: registering the same URL twice keeps the later time,
      and registering two different URLs commutes. */
  lemma RegisterVisitLastWriterWins(ledger: Visits, u: string, v: string, t1: int, t2: int)
    ensures RegisterVisit(RegisterVisit(ledger, u, t1), u, t2) == RegisterVisit(ledger, u, t2)
    ensures u != v ==>
      RegisterVisit(RegisterVisit(ledger, u, t1), v, t2) == RegisterVisit(RegisterVisit(ledger, v, t2), u, t1)
  {
  }
}

=== FILE: lifecycle.dfy ===
/** Page start-up and the events that re-run the marking engine in
    content.js: `init` (settings read, the exclusion gate, page flag, ledger
    load, first sweep), the mutation observer's incremental sweep, the
    visibility-change / back-forward reload, and the page's own click
    listener. Storage reads arrive as parameters. */
module Lifecycle {
  import opened Wrappers
  import opened Config
  import opened Ledger
  import opened Exclusion
  import opened Marking
  import ManualMark

  /** The settings the content script holds after its start-up read, as
      written: the store is read with the content defaults object, so only
      the keys that object names come back and `showControlButton` is always
      undefined. */
  function ReadSettingsAsWritten(store: Patch): (r: Settings)
    ensures forall f :: f in ContentKeys ==> r.Get(f) == store.Lookup(f).GetOr(ContentDefaults.Get(f))
    ensures !r.showControlButton
  {
    var read := Restrict(store, ContentKeys);
    var r := Overlay(ContentDefaults, read);
    forall f | f in ContentKeys ensures r.Get(f) == store.Lookup(f).GetOr(ContentDefaults.Get(f)) {
      RestrictLookup(store, ContentKeys, f);
    }
    RestrictLookup(store, ContentKeys, ShowControlButtonKey);
    r
  }

  /** Whatever the store holds, start-up as written never asks for the
      floating button. */
  lemma ButtonNeverRequestedAsWritten(store: Patch)
    requires store.showControlButton == Some(true)
    ensures !ReadSettingsAsWritten(store).showControlButton
  {
  }

  const ButtonKeys: set<Field> := ContentKeys + {ShowControlButtonKey}

  /** The start-up read as intended: `showControlButton` is read as well,
      defaulting to true as in the other scripts. */
  function ReadSettings(store: Patch): (r: Settings)
    ensures forall f :: f in ContentKeys ==> r.Get(f) == store.Lookup(f).GetOr(ContentDefaults.Get(f))
    ensures r.showControlButton == store.showControlButton.GetOr(BackgroundDefaults.showControlButton)
  {
    var read := Restrict(store, ButtonKeys);
    var base := ContentDefaults.(showControlButton := BackgroundDefaults.showControlButton);
    var r := Overlay(base, read);
    forall f | f in ContentKeys ensures r.Get(f) == store.Lookup(f).GetOr(ContentDefaults.Get(f)) {
      RestrictLookup(store, ButtonKeys, f);
    }
    RestrictLookup(store, ButtonKeys, ShowControlButtonKey);
    r
  }

  /** The state of a fresh page before start-up completes. */
  function Fresh(settings: Settings): (r: PageState)
    ensures Valid(r) && r.visible && r.pageMarking && r.marks == map[] && r.visited == map[]
  {
    PageState(settings, map[], {}, map[], true, true, false, false, None)
  }

  /** The page-flag read: marking is on unless the stored flag is `false`. */
  function FlagOn(stored: Option<bool>): bool {
    stored != Some(false)
  }

  /** The outcome of start-up: the page state, and whether the ledger was read. */
  datatype Boot = Boot(state: PageState, ledgerRead: bool)

  /** The body of `init` once the settings are in hand: the exclusion gate,
      then the page flag, the ledger load, the first sweep, the observer and
      the button. `host` is the page's host name, `pageFlag` the stored
      `page_marking:<url>` value, `ledger` the stored `visitedLinks`. */
  function Start(st: Settings, host: string, pageFlag: Option<bool>, ledger: Visits,
                 page: seq<Anchor>, c: Clock): (r: Boot)
    ensures r.ledgerRead <==> !IsExcluded(host, st.excludeSites)
    ensures !r.ledgerRead ==> r.state == Fresh(st)
    ensures r.ledgerRead ==>
              && r.state.visited == Survivors(ledger, st.historyMode, st.customRetentionTime, c.now)
              && r.state.pageMarking == FlagOn(pageFlag)
              && r.state.observing == (st.enabled && st.showCurrentPage)
              && r.state.button == st.showControlButton
    ensures r.state.settings == st
    ensures r.state.visible && r.state.selecting.None?
    ensures Valid(r.state)
  {
    var s := Fresh(st);
    if IsExcluded(host, st.excludeSites) then Boot(s, false)
    else
      var loaded := s.(pageMarking := FlagOn(pageFlag),
                       visited := Load(s.visited, ledger, st.historyMode, st.customRetentionTime, c.now));
      var swept := MarkVisitedLinksOnPage(loaded, page, c);
      Boot(swept.(observing := st.enabled && st.showCurrentPage, button := st.showControlButton), true)
  }

  /** `init` as written, once its storage reads have returned: the settings
      come from the as-written read, so the floating button is never added. */
  function Init(store: Patch, host: string, pageFlag: Option<bool>, ledger: Visits,
                page: seq<Anchor>, c: Clock): (r: Boot)
    ensures r.ledgerRead <==> !IsExcluded(host, ReadSettingsAsWritten(store).excludeSites)
    ensures !r.ledgerRead ==> r.state == Fresh(ReadSettingsAsWritten(store))
    ensures r.ledgerRead ==>
              var st := ReadSettingsAsWritten(store);
              && r.state.visited == Survivors(ledger, st.historyMode, st.customRetentionTime, c.now)
              && r.state.pageMarking == FlagOn(pageFlag)
              && r.state.observing == (st.enabled && st.showCurrentPage)
    ensures !r.state.button
    ensures r.state.visible && r.state.selecting.None?
    ensures Valid(r.state)
  {
    Start(ReadSettingsAsWritten(store), host, pageFlag, ledger, page, c)
  }

  /** `init` with the corrected settings read: the same start-up, except
      that the button follows the stored `showControlButton` (default true). */
  function InitIntended(store: Patch, host: string, pageFlag: Option<bool>, ledger: Visits,
                        page: seq<Anchor>, c: Clock): (r: Boot)
    ensures r.ledgerRead == Init(store, host, pageFlag, ledger, page, c).ledgerRead
    ensures r.ledgerRead ==>
              && r.state.visited == Init(store, host, pageFlag, ledger, page, c).state.visited
              && r.state.pageMarking == FlagOn(pageFlag)
              && r.state.observing == Init(store, host, pageFlag, ledger, page, c).state.observing
    ensures r.state.button <==> r.ledgerRead && store.showControlButton.GetOr(true)
    ensures r.state.visible && r.state.selecting.None?
    ensures Valid(r.state)
  {
    var st := ReadSettings(store);
    var st0 := ReadSettingsAsWritten(store);
    assert st.Get(ExcludeSitesKey) == st0.Get(ExcludeSitesKey);
    assert st.Get(HistoryModeKey) == st0.Get(HistoryModeKey);
    assert st.Get(CustomRetentionTimeKey) == st0.Get(CustomRetentionTimeKey);
    assert st.Get(EnabledKey) == st0.Get(EnabledKey);
    assert st.Get(ShowCurrentPageKey) == st0.Get(ShowCurrentPageKey);
    Start(st, host, pageFlag, ledger, page, c)
  }

  /** Start-up as written never shows the floating button; start-up as
      intended shows it on every page that is not excluded unless the user
      switched it off. */
  lemma ButtonAtStartUp(store: Patch, host: string, pageFlag: Option<bool>, ledger: Visits,
                        page: seq<Anchor>, c: Clock)
    requires store.showControlButton.GetOr(true)
    requires !IsExcluded(host, ReadSettings(store).excludeSites)
    ensures !Init(store, host, pageFlag, ledger, page, c).state.button
    ensures InitIntended(store, host, pageFlag, ledger, page, c).state.button
  {
  }

  /** On an excluded site start-up stops before the ledger read: no visits
      are loaded, nothing is marked, no observer is installed, and no button
      is added. */
  lemma ExcludedSiteShortCircuits(store: Patch, host: string, pageFlag: Option<bool>, ledger: Visits,
                                  page: seq<Anchor>, c: Clock)
    requires IsExcluded(host, ReadSettingsAsWritten(store).excludeSites)
    ensures var r := Init(store, host, pageFlag, ledger, page, c);
            && !r.ledgerRead && r.state.visited == map[] && r.state.marks == map[]
            && !r.state.observing && !r.state.button
  {
  }

  /** On a site that is not excluded and with marking shown, start-up marks
      exactly the page's qualifying anchors, each with its stored visit's tier. */
  lemma InitMarksLoadedVisits(store: Patch, host: string, pageFlag: Option<bool>, ledger: Visits,
                              page: seq<Anchor>, c: Clock)
    requires !IsExcluded(host, ReadSettingsAsWritten(store).excludeSites)
    requires ReadSettingsAsWritten(store).enabled && ReadSettingsAsWritten(store).showCurrentPage
    requires DistinctIds(page)
    ensures var r := Init(store, host, pageFlag, ledger, page, c).state;
            forall i :: 0 <= i < |page| ==> (page[i].id in r.marks <==> Qualifies(page[i], r.visited))
  {
    var st := ReadSettingsAsWritten(store);
    var s := Fresh(st);
    var loaded := s.(pageMarking := FlagOn(pageFlag),
                     visited := Load(s.visited, ledger, st.historyMode, st.customRetentionTime, c.now));
    SweepMarksExactly(loaded, page, c);
  }

  /** The mutation observer's callback: inserted anchors (each inserted
      anchor, and every anchor inside an inserted subtree) are swept when
      the observer was installed at start-up. */
  function OnMutation(s: PageState, inserted: seq<Anchor>, c: Clock): (r: PageState)
    ensures !s.observing ==> r == s
    ensures s.observing && DistinctIds(inserted) ==>
              forall i :: 0 <= i < |inserted| && inserted[i].id !in s.applied ==>
                (inserted[i].id in r.applied <==> Qualifies(inserted[i], s.visited))
    ensures s.observing && DistinctIds(inserted) ==>
              forall i :: 0 <= i < |inserted| && inserted[i].id !in s.applied && Qualifies(inserted[i], s.visited) ==>
                var v := s.visited[inserted[i].href];
                inserted[i].id in r.marks && r.marks[inserted[i].id] == Mark(Classifier.Classify(v, c.now, c.midnight), v, !s.visible)
    ensures forall id :: id !in Ids(inserted) || id in s.applied ==> SameAt(s, r, id)
    ensures OnlyMarksDiffer(s, r) && (Valid(s) ==> Valid(r))
  {
    if s.observing then
      var r := Sweep(s, inserted, c);
      if DistinctIds(inserted) then SweepMarksExactly(s, inserted, c); r else r
    else s
  }

  /** The `visibilitychange` (to visible) and `popstate` handlers: re-read the
      page flag, merge a fresh ledger load into the visit map, forget
      `markApplied` and sweep the whole page again, so every qualifying
      anchor gets its tier for the current time. They do not consult the
      exclusion list. */
  function Reload(s: PageState, pageFlag: Option<bool>, ledger: Visits, page: seq<Anchor>, c: Clock): (r: PageState)
    ensures r.pageMarking == FlagOn(pageFlag)
    ensures && r.settings == s.settings && r.visible == s.visible && r.observing == s.observing
            && r.button == s.button && r.selecting == s.selecting
    ensures !(s.settings.enabled && s.settings.showCurrentPage) ==> r.applied == {} && r.marks == s.marks
    ensures forall id :: id !in Ids(page) ==>
              id !in r.applied && (id in r.marks <==> id in s.marks) && (id in s.marks ==> r.marks[id] == s.marks[id])
    ensures s.settings.enabled && s.settings.showCurrentPage && DistinctIds(page) ==>
              forall i :: 0 <= i < |page| ==>
                && (page[i].id in r.applied <==> Qualifies(page[i], r.visited))
                && (Qualifies(page[i], r.visited) ==>
                      var v := r.visited[page[i].href];
                      page[i].id in r.marks
                      && r.marks[page[i].id] == Mark(Classifier.Classify(v, c.now, c.midnight), v, !s.visible))
    ensures r.visited == Load(s.visited, ledger, s.settings.historyMode, s.settings.customRetentionTime, c.now)
    ensures s.visited.Keys <= r.visited.Keys
    ensures Valid(s) ==> Valid(r)
  {
    var t := s.(pageMarking := FlagOn(pageFlag),
                visited := Load(s.visited, ledger, s.settings.historyMode, s.settings.customRetentionTime, c.now),
                applied := {});
    MarkVisitedLinksOnPage(t, page, c)
  }

  /** After a reload with marking shown, every qualifying anchor carries the
      tier of its visit at the reload time: tiers are recomputed, not kept. */
  lemma ReloadRefreshesTiers(s: PageState, pageFlag: Option<bool>, ledger: Visits, page: seq<Anchor>, c: Clock)
    requires s.settings.enabled && s.settings.showCurrentPage && DistinctIds(page)
    ensures var r := Reload(s, pageFlag, ledger, page, c);
            forall i :: 0 <= i < |page| && Qualifies(page[i], r.visited) ==>
              page[i].id in r.marks &&
              r.marks[page[i].id].tier == Classifier.Classify(r.visited[page[i].href], c.now, c.midnight)
  {
    var t := s.(pageMarking := FlagOn(pageFlag),
                visited := Load(s.visited, ledger, s.settings.historyMode, s.settings.customRetentionTime, c.now),
                applied := {});
    SweepMarksExactly(t, page, c);
  }

  // ---------------------------------------------------------------------------
  // Clicks

  /** The page's capturing click listener: with page marking on, the nearest
      http anchor on the path is recorded as visited now; with it off,
      nothing is recorded. It is installed whether or not the site is
      excluded. */
  function RecordClick(s: PageState, ledger: Visits, path: seq<Node>, now: int): (r: Step)
    ensures !s.pageMarking || ClickedLink(path).None? ==> r == Step(s, ledger)
    ensures s.pageMarking && ClickedLink(path).Some? ==>
              var url := ClickedLink(path).value.href;
              && r.state == s.(visited := s.visited[url := now])
              && r.ledger == RegisterVisit(ledger, url, now)
    ensures Valid(s) ==> Valid(r.state)
  {
    if !s.pageMarking then Step(s, ledger)
    else
      match ClickedLink(path)
      case None => Step(s, ledger)
      case Some(a) => RegisterLinkVisit(s, ledger, a.href, now)
  }

  /** A click: the page's listener runs first, then, in manual-mark mode, the
      mode's own listener. */
  function OnClick(s: PageState, ledger: Visits, path: seq<Node>, c: Clock): (r: Step)
    ensures s.selecting.None? ==> r == RecordClick(s, ledger, path, c.now)
    ensures Valid(s) ==> Valid(r.state)
  {
    var first := RecordClick(s, ledger, path, c.now);
    ManualMark.OnSelectingClick(first.state, first.ledger, path, c)
  }

  /** Outside manual-mark mode, a click with page marking off records nothing
      and changes nothing; with it on, only the nearest http anchor's URL is
      written, and every other ledger key keeps its time. */
  lemma ClickGate(s: PageState, ledger: Visits, path: seq<Node>, c: Clock)
    requires s.selecting.None?
    ensures !s.pageMarking ==> OnClick(s, ledger, path, c) == Step(s, ledger)
    ensures s.pageMarking && ClickedLink(path).Some? ==>
              var url := ClickedLink(path).value.href;
              var r := OnClick(s, ledger, path, c);
              && r.ledger.Keys == ledger.Keys + {url}
              && r.ledger[url] == c.now && r.state.visited[url] == c.now
              && (forall u :: u in ledger && u != url ==> u in r.ledger && r.ledger[u] == ledger[u])
  {
  }

  /** Start-up on an excluded site leaves page marking on, so the page's own
      click listener still writes visits there. */
  lemma ExcludedSiteStillRecordsClicks(store: Patch, host: string, ledger: Visits, a: Anchor, c: Clock)
    requires IsExcluded(host, ReadSettingsAsWritten(store).excludeSites) && IsHttpLink(a)
    ensures var s := Init(store, host, None, ledger, [], c).state;
            OnClick(s, ledger, [LinkNode(a)], c).ledger == ledger[a.href := c.now]
  {
    assert ClickedLink([LinkNode(a)]) == Some(a);
  }

  /** In manual-mark mode a click on the highlighted link runs the page's
      own listener and then marks the link: its visit is written now, it is
      marked, and the mode ends. */
  lemma ClickOnHighlightedMarks(s: PageState, ledger: Visits, a: Anchor, c: Clock)
    requires s.selecting.Some? && s.selecting.value.highlighted == Some(a) && IsHttpLink(a)
    ensures var first := RecordClick(s, ledger, [LinkNode(a)], c.now);
            var r := OnClick(s, ledger, [LinkNode(a)], c);
            && r == ManualMark.MarkLink(first.state, first.ledger, a, c)
            && r.ledger == RegisterVisit(ledger, a.href, c.now)
            && r.state.selecting.None? && a.id in r.state.applied && r.state.visited[a.href] == c.now
  {
    assert ClickedLink([LinkNode(a)]) == Some(a);
    assert PromptNode !in [LinkNode(a)];
  }

  /** In manual-mark mode the page's own listener still runs first: with
      page marking on, the click that only highlights a link has already
      recorded its visit. */
  lemma ManualModeClickAlsoRecords(s: PageState, ledger: Visits, a: Anchor, c: Clock)
    requires s.selecting.Some? && s.selecting.value.highlighted != Some(a)
    requires s.pageMarking && IsHttpLink(a)
    ensures var r := OnClick(s, ledger, [LinkNode(a)], c);
            && r.ledger == RegisterVisit(ledger, a.href, c.now)
            && r.state.visited[a.href] == c.now
            && r.state.selecting == Some(s.selecting.value.(highlighted := Some(a)))
  {
    assert ClickedLink([LinkNode(a)]) == Some(a);
    assert PromptNode !in [LinkNode(a)];
  }
}

=== FILE: manual.dfy ===
/** Manual-mark mode of content.js (`enableManualMarkMode`): a selection over
    the page's http links, stepped with Tab / Shift+Tab, confirmed with Enter
    or a second click, left with Escape. Highlight styling, scrolling, the
    prompt text and the 30-second timeout are outside the model. */
module ManualMark {
  import opened Wrappers
  import opened Strings
  import opened Classifier
  import opened Ledger
  import opened Marking

  datatype Key = Tab | ShiftTab | Enter | Escape | OtherKey

  /** `a[href^="http"]`, in document order. */
  function MarkableLinks(page: seq<Anchor>): (r: seq<Anchor>)
    ensures forall i :: 0 <= i < |r| ==> IsHttp(r[i].attr)
    ensures forall a :: a in r <==> a in page && IsHttp(a.attr)
    ensures DistinctIds(page) ==> DistinctIds(r)
    decreases |page|
  {
    if |page| == 0 then []
    else
      var rest := MarkableLinks(page[1..]);
      assert forall a :: a in page <==> a == page[0] || a in page[1..];
      assert DistinctIds(page) ==> DistinctIds(page[1..]) && page[0] !in page[1..] && forall a :: a in page[1..] ==> a.id != page[0].id by {
        if DistinctIds(page) {
          forall a | a in page[1..] ensures a.id != page[0].id {
            var j :| 0 <= j < |page[1..]| && page[1..][j] == a;
            assert page[j + 1] == a;
          }
        }
      }
      if IsHttp(page[0].attr) then [page[0]] + rest else rest
  }

  /** The links keep their document order: the selection over two stretches
      of the page is the selection over the first followed by the selection
      over the second, so "first" and "last" for Tab are the page's. */
  lemma {:induction false} MarkableLinksKeepsOrder(a: seq<Anchor>, b: seq<Anchor>)
    ensures MarkableLinks(a + b) == MarkableLinks(a) + MarkableLinks(b)
    decreases |a|
  {
    if |a| > 0 {
      assert (a + b)[0] == a[0] && (a + b)[1..] == a[1..] + b;
      MarkableLinksKeepsOrder(a[1..], b);
    } else {
      assert a + b == b;
    }
  }

  /** Entering the mode: the markable links are captured, nothing highlighted. */
  function EnterMode(s: PageState, page: seq<Anchor>): (r: PageState)
    ensures r.selecting == Some(Selection(MarkableLinks(page), None))
    ensures r == s.(selecting := r.selecting)
  {
    s.(selecting := Some(Selection(MarkableLinks(page), None)))
  }

  /** `markableLinks.indexOf(currentHighlightedLink)`: the first position of
      the highlighted link, or -1 when nothing (or an unlisted link) is. */
  function IndexOf(links: seq<Anchor>, x: Option<Anchor>): (i: int)
    ensures -1 <= i < |links|
    ensures i >= 0 ==> x == Some(links[i]) && forall j :: 0 <= j < i ==> x != Some(links[j])
    ensures i == -1 ==> forall j :: 0 <= j < |links| ==> x != Some(links[j])
    decreases |links|
  {
    if |links| == 0 then -1
    else if x == Some(links[0]) then 0
    else
      var k := IndexOf(links[1..], x);
      assert forall j :: 1 <= j < |links| ==> links[j] == links[1..][j - 1];
      if k == -1 then -1 else k + 1
  }

  /** The Tab (forward) and Shift+Tab (`back`) index rule, wrapping at both
      ends; from "no highlight" (-1) Tab goes to the first link and Shift+Tab
      to the last. */
  function NextIndex(current: int, n: int, back: bool): (next: int)
    requires n > 0 && -1 <= current < n
    ensures 0 <= next < n
    ensures current == -1 ==> next == (if back then n - 1 else 0)
  {
    if back then (if current <= 0 then n - 1 else current - 1)
    else (if current >= n - 1 then 0 else current + 1)
  }

  /** On a highlighted link, Tab moves one place forward and Shift+Tab one
      place back, modulo the number of links. */
  lemma NextIndexIsModular(i: int, n: int)
    requires 0 <= i < n
    ensures NextIndex(i, n, false) == (i + 1) % n
    ensures NextIndex(i, n, true) == (i - 1 + n) % n
  {
    if i + 1 < n {
      ModUnique(i + 1, n, 0, i + 1);
    } else {
      ModUnique(i + 1, n, 1, 0);
    }
    if i > 0 {
      ModUnique(i - 1 + n, n, 1, i - 1);
    } else {
      ModUnique(i - 1 + n, n, 0, n - 1);
    }
  }

  /** Shift+Tab undoes Tab and Tab undoes Shift+Tab. */
  lemma TabShiftTabInverse(i: int, n: int)
    requires 0 <= i < n
    ensures NextIndex(NextIndex(i, n, false), n, true) == i
    ensures NextIndex(NextIndex(i, n, true), n, false) == i
  {
  }

  /** The index after `k` Tab presses from index `i`. */
  function TabPresses(i: int, n: int, k: nat): (r: int)
    requires n > 0 && -1 <= i < n
    ensures -1 <= r < n
    decreases k
  {
    if k == 0 then i else NextIndex(TabPresses(i, n, k - 1), n, false)
  }

  /** Quotient and remainder are unique. */
  lemma ModUnique(a: int, n: int, q: int, r: int)
    requires n > 0 && 0 <= r < n && a == q * n + r
    ensures a % n == r
  {
    var q', r' := a / n, a % n;
    assert a == q' * n + r';
    if q > q' {
      MulAtLeast(q - q', n);
      MulDistributes(q, q', n);
    } else if q < q' {
      MulAtLeast(q' - q, n);
      MulDistributes(q', q, n);
    }
  }

  lemma MulDistributes(x: int, y: int, n: int)
    ensures (x - y) * n == x * n - y * n
  {
  }

  lemma {:induction false} MulAtLeast(d: int, n: int)
    requires d >= 1 && n > 0
    ensures d * n >= n
    decreases d
  {
    if d > 1 {
      MulAtLeast(d - 1, n);
      MulDistributes(d, 1, n);
    }
  }

  lemma ModSuccessor(j: int, n: int)
    requires n > 0
    ensures (j % n + 1) % n == (j + 1) % n
  {
    var q, r := j / n, j % n;
    assert j == q * n + r;
    if r + 1 < n {
      ModUnique(j + 1, n, q, r + 1);
      ModUnique(r + 1, n, 0, r + 1);
    } else {
      assert j + 1 == (q + 1) * n + 0;
      ModUnique(j + 1, n, q + 1, 0);
      ModUnique(r + 1, n, 1, 0);
    }
  }

  /** `k` Tab presses from a highlighted index land `k` places further on,
      wrapping; in particular `n` presses come back and every link is reached. */
  lemma {:induction false} TabCycle(i: int, n: int, k: nat)
    requires 0 <= i < n
    ensures TabPresses(i, n, k) == (i + k) % n
    decreases k
  {
    if k > 0 {
      TabCycle(i, n, k - 1);
      NextIndexIsModular((i + k - 1) % n, n);
      ModSuccessor(i + k - 1, n);
    }
  }

  /** `markLink`: an http link is recorded as visited now (page map and stored
      ledger), run through `processLink`, and the mode ends. The page-marking
      flag is not consulted. A link without an http href does nothing. */
  function MarkLink(s: PageState, ledger: Visits, a: Anchor, c: Clock): (r: Step)
    ensures !IsHttpLink(a) ==> r == Step(s, ledger)
    ensures IsHttpLink(a) ==> r.state.selecting.None? && r.ledger == RegisterVisit(ledger, a.href, c.now)
    ensures IsHttpLink(a) ==> a.id in r.state.applied && a.href in r.state.visited && r.state.visited[a.href] == c.now
    ensures IsHttpLink(a) && a.id !in s.applied ==>
              a.id in r.state.marks && r.state.marks[a.id] == Mark(Recent, c.now, !s.visible)
    ensures IsHttpLink(a) ==>
              && r.state == s.(visited := r.state.visited, applied := r.state.applied,
                               marks := r.state.marks, selecting := None)
              && r.state.visited == s.visited[a.href := c.now]
              && (forall id :: id != a.id ==> SameAt(s, r.state, id))
              && (a.id in s.applied ==> SameAt(s, r.state, a.id))
    ensures Valid(s) ==> Valid(r.state)
  {
    if IsHttpLink(a) then
      var st := RegisterLinkVisit(s, ledger, a.href, c.now);
      Step(ProcessLink(st.state, a, c).(selecting := None), st.ledger)
    else Step(s, ledger)
  }

  /** The mode's key handler; without an active selection no handler is
      attached and keys do nothing. */
  function OnKey(s: PageState, ledger: Visits, key: Key, c: Clock): (r: Step)
    ensures s.selecting.None? ==> r == Step(s, ledger)
    ensures key == Escape ==> r == Step(s.(selecting := None), ledger)
    ensures key == OtherKey ==> r == Step(s, ledger)
    ensures (key == Tab || key == ShiftTab) && s.selecting.Some? ==>
              r.ledger == ledger && r.state == s.(selecting := r.state.selecting) &&
              r.state.selecting.Some? && r.state.selecting.value.links == s.selecting.value.links
    ensures (key == Tab || key == ShiftTab) && s.selecting.Some? && |s.selecting.value.links| == 0 ==>
              r == Step(s, ledger)
    ensures (key == Tab || key == ShiftTab) && s.selecting.Some? && |s.selecting.value.links| > 0 ==>
              var sel := s.selecting.value;
              r.state.selecting.value.highlighted
                == Some(sel.links[NextIndex(IndexOf(sel.links, sel.highlighted), |sel.links|, key == ShiftTab)])
    ensures key == Enter && s.selecting.Some? ==>
              var sel := s.selecting.value;
              r == if sel.highlighted.Some? then MarkLink(s, ledger, sel.highlighted.value, c) else Step(s, ledger)
    ensures Valid(s) ==> Valid(r.state)
  {
    match s.selecting
    case None => Step(s, ledger)
    case Some(sel) =>
      match key
      case Tab | ShiftTab =>
        if |sel.links| > 0 then
          var next := NextIndex(IndexOf(sel.links, sel.highlighted), |sel.links|, key == ShiftTab);
          Step(s.(selecting := Some(sel.(highlighted := Some(sel.links[next])))), ledger)
        else Step(s, ledger)
      case Enter =>
        if sel.highlighted.Some? then MarkLink(s, ledger, sel.highlighted.value, c) else Step(s, ledger)
      case Escape => Step(s.(selecting := None), ledger)
      case OtherKey => Step(s, ledger)
  }

  /** With distinct links, Tab then Shift+Tab (or the reverse) from a
      highlighted link returns to the same state. */
  lemma TabThenShiftTabRestores(s: PageState, ledger: Visits, i: int, c: Clock)
    requires s.selecting.Some? && DistinctIds(s.selecting.value.links)
    requires 0 <= i < |s.selecting.value.links|
    requires s.selecting.value.highlighted == Some(s.selecting.value.links[i])
    ensures OnKey(OnKey(s, ledger, Tab, c).state, ledger, ShiftTab, c) == Step(s, ledger)
    ensures OnKey(OnKey(s, ledger, ShiftTab, c).state, ledger, Tab, c) == Step(s, ledger)
  {
    var links := s.selecting.value.links;
    var n := |links|;
    forall k | 0 <= k < n ensures IndexOf(links, Some(links[k])) == k {
      var j := IndexOf(links, Some(links[k]));
      assert j != -1 && j <= k;
      assert links[j].id == links[k].id;
    }
    TabShiftTabInverse(i, n);
  }

  /** The mode's click handler, run after the page's own click listener.
      Clicks inside the prompt box and clicks that reach no http link change
      nothing; a click on the highlighted link marks it; a click on any other
      http link highlights it. */
  function OnSelectingClick(s: PageState, ledger: Visits, path: seq<Node>, c: Clock): (r: Step)
    ensures s.selecting.None? || PromptNode in path || ClickedLink(path).None? ==> r == Step(s, ledger)
    ensures s.selecting.Some? && PromptNode !in path && ClickedLink(path).Some? ==>
              var a := ClickedLink(path).value;
              if s.selecting.value.highlighted == Some(a) then r == MarkLink(s, ledger, a, c)
              else r == Step(s.(selecting := Some(s.selecting.value.(highlighted := Some(a)))), ledger)
    ensures Valid(s) ==> Valid(r.state)
  {
    match s.selecting
    case None => Step(s, ledger)
    case Some(sel) =>
      if PromptNode in path then Step(s, ledger)
      else
        match ClickedLink(path)
        case None => Step(s, ledger)
        case Some(a) =>
          if sel.highlighted == Some(a) then MarkLink(s, ledger, a, c)
          else Step(s.(selecting := Some(sel.(highlighted := Some(a)))), ledger)
  }

  /** Clicking a link twice in the mode marks it: the first click highlights,
      the second records the visit now and ends the mode. */
  lemma ClickTwiceMarks(s: PageState, ledger: Visits, a: Anchor, c: Clock)
    requires s.selecting.Some? && s.selecting.value.highlighted != Some(a)
    requires IsHttpLink(a)
    ensures var once := OnSelectingClick(s, ledger, [LinkNode(a)], c);
            var twice := OnSelectingClick(once.state, once.ledger, [LinkNode(a)], c);
            twice.state.selecting.None? && a.id in twice.state.applied &&
            twice.ledger == RegisterVisit(ledger, a.href, c.now)
  {
    assert ClickedLink([LinkNode(a)]) == Some(a);
    assert PromptNode !in [LinkNode(a)];
  }
}

=== FILE: marking.dfy ===
/** The per-page marking engine of content.js: the page state, the per-link
    marking step (`processLink` / `applyMarkStyle`), sweeps over a list of
    anchors, the visibility switch, and the per-URL force-mark and ignore
    operations. The DOM is abstracted to the anchors that carry an `href`. */
module Marking {
  import opened Wrappers
  import opened Strings
  import opened Config
  import opened Classifier
  import opened Ledger

  /** An `<a href>` element. `id` is its identity; `attr` is the literal href
      attribute (what `a[href="…"]` and `a[href^="http"]` select on); `href`
      is the resolved URL the element reports (`link.href`). */
  datatype Anchor = Anchor(id: nat, attr: string, href: string)

  /** The marker an element carries: `data-visited-marker` (the tier),
      `data-visited-time`, and whether it has the `visited-marker-hidden` class. */
  datatype Mark = Mark(tier: Tier, time: int, hidden: bool)

  /** The current time and the start of the current local day. */
  datatype Clock = Clock(now: int, midnight: int)

  /** Manual-mark mode while active: the links it can step through (a snapshot
      of `a[href^="http"]`) and the highlighted one, if any. */
  datatype Selection = Selection(links: seq<Anchor>, highlighted: Option<Anchor>)

  /** Everything the content script keeps for one page. */
  datatype PageState = PageState(
    settings: Settings,           // `settings`
    visited: Visits,              // in-memory `visitedLinks`
    applied: set<nat>,            // `markApplied`
    marks: map<nat, Mark>,        // marker attributes and hidden class, per element
    visible: bool,                // `isCurrentlyVisible`
    pageMarking: bool,            // `isPageMarkingEnabled`
    observing: bool,              // whether the mutation observer was installed
    button: bool,                 // whether the floating control button is present
    selecting: Option<Selection>) // manual-mark mode

  /** The bookkeeping invariant: every element in `markApplied` carries a
      marker, and a marker carries the hidden class exactly when marks are
      currently invisible. */
  predicate Valid(s: PageState) {
    && s.applied <= s.marks.Keys
    && forall id :: id in s.marks ==> (s.marks[id].hidden <==> !s.visible)
  }

  /** The anchors `processLink` marks: a non-empty http href with a visit. */
  predicate Qualifies(a: Anchor, visited: Visits) {
    |a.href| > 0 && IsHttp(a.href) && a.href in visited
  }

  function Ids(anchors: seq<Anchor>): set<nat> {
    set i | 0 <= i < |anchors| :: anchors[i].id
  }

  /** Anchors' ids are distinct (each element appears once). */
  predicate DistinctIds(anchors: seq<Anchor>) {
    forall i, j :: 0 <= i < j < |anchors| ==> anchors[i].id != anchors[j].id
  }

  /** Two states agree on element `id`'s marker and `markApplied` membership. */
  predicate SameAt(s: PageState, t: PageState, id: nat) {
    && (id in s.applied <==> id in t.applied)
    && (id in s.marks <==> id in t.marks)
    && (id in s.marks ==> s.marks[id] == t.marks[id])
  }

  /** Only the marker bookkeeping differs between `s` and `t`. */
  predicate OnlyMarksDiffer(s: PageState, t: PageState) {
    t == s.(applied := t.applied, marks := t.marks)
  }

  // ---------------------------------------------------------------------------
  // One link

  /** `applyMarkStyle`: the element gets the tier of `visitTime` now, the time
      itself, and the hidden class exactly when marks are invisible. */
  function ApplyMarkStyle(s: PageState, id: nat, visitTime: int, c: Clock): (r: PageState)
    ensures r.marks.Keys == s.marks.Keys + {id}
    ensures r.marks[id].tier == Classify(visitTime, c.now, c.midnight)
    ensures r.marks[id].time == visitTime
    ensures r.marks[id].hidden <==> !s.visible
    ensures forall other :: other != id ==> SameAt(s, r, other)
    ensures OnlyMarksDiffer(s, r) && r.applied == s.applied
    ensures Valid(s) ==> Valid(r)
  {
    s.(marks := s.marks[id := Mark(Classify(visitTime, c.now, c.midnight), visitTime, !s.visible)])
  }

  /** `processLink`: an element already in `markApplied` is left alone; any
      other is added to `markApplied` and marked exactly when it qualifies. */
  function ProcessLink(s: PageState, a: Anchor, c: Clock): (r: PageState)
    ensures a.id in s.applied ==> r == s
    ensures a.id !in s.applied ==> (a.id in r.applied <==> Qualifies(a, s.visited))
    ensures a.id !in s.applied && Qualifies(a, s.visited) ==>
              a.id in r.marks && r.marks[a.id] == Mark(Classify(s.visited[a.href], c.now, c.midnight), s.visited[a.href], !s.visible)
    ensures !Qualifies(a, s.visited) ==> r == s
    ensures forall other :: other != a.id ==> SameAt(s, r, other)
    ensures OnlyMarksDiffer(s, r) && s.applied <= r.applied
    ensures Valid(s) ==> Valid(r)
  {
    if |a.href| == 0 || a.id in s.applied then s
    else if !IsHttp(a.href) then s
    else if a.href in s.visited then
      ApplyMarkStyle(s.(applied := s.applied + {a.id}), a.id, s.visited[a.href], c)
    else s
  }

  /** Running `processLink` twice on an element is running it once. */
  lemma ProcessLinkIdempotent(s: PageState, a: Anchor, c: Clock)
    ensures ProcessLink(ProcessLink(s, a, c), a, c) == ProcessLink(s, a, c)
  {
  }

  // ---------------------------------------------------------------------------
  // Sweeps

  /** `processLink` over a list of anchors in order: the initial sweep
      (`markVisitedLinksOnPage`) and the mutation-driven sweep of inserted
      anchors. Elements outside the list, and elements already in
      `markApplied`, keep their markers. */
  function Sweep(s: PageState, anchors: seq<Anchor>, c: Clock): (r: PageState)
    ensures OnlyMarksDiffer(s, r) && s.applied <= r.applied
    ensures forall id :: id in s.applied || id !in Ids(anchors) ==> SameAt(s, r, id)
    ensures forall id :: id in r.applied - s.applied ==>
              exists i :: 0 <= i < |anchors| && anchors[i].id == id && Qualifies(anchors[i], s.visited)
    ensures Valid(s) ==> Valid(r)
    decreases |anchors|
  {
    if |anchors| == 0 then s
    else
      var t := ProcessLink(s, anchors[0], c);
      var r := Sweep(t, anchors[1..], c);
      assert forall i :: 1 <= i < |anchors| ==> anchors[1..][i - 1] == anchors[i];
      assert Ids(anchors) == {anchors[0].id} + Ids(anchors[1..]) by {
        forall id | id in Ids(anchors) ensures id in {anchors[0].id} + Ids(anchors[1..]) {
          var i :| 0 <= i < |anchors| && anchors[i].id == id;
          if i > 0 { assert anchors[1..][i - 1].id == id; }
        }
      }
      forall id | id in r.applied - s.applied
        ensures exists i :: 0 <= i < |anchors| && anchors[i].id == id && Qualifies(anchors[i], s.visited)
      {
        if id in t.applied {
          assert anchors[0].id == id && Qualifies(anchors[0], s.visited);
        } else {
          var rest := anchors[1..];
          assert id in r.applied - t.applied;
          assert r == Sweep(t, rest, c);
          var j :| 0 <= j < |rest| && rest[j].id == id && Qualifies(rest[j], t.visited);
          assert anchors[j + 1] == rest[j];
        }
      }
      r
  }

  /** Sweeping an unchanged page a second time changes nothing. */
  lemma SweepIdempotent(s: PageState, anchors: seq<Anchor>, c: Clock)
    ensures Sweep(Sweep(s, anchors, c), anchors, c) == Sweep(s, anchors, c)
  {
    SweepSettles(s, anchors, c);
    SweepFixpoint(Sweep(s, anchors, c), anchors, c);
  }

  /** An anchor that `processLink` will leave alone: already handled, or not
      qualifying. Stays so while only `markApplied` grows. */
  predicate Settled(s: PageState, a: Anchor) {
    a.id in s.applied || !Qualifies(a, s.visited)
  }

  lemma {:induction false} SweepSettles(s: PageState, anchors: seq<Anchor>, c: Clock)
    ensures forall i :: 0 <= i < |anchors| ==> Settled(Sweep(s, anchors, c), anchors[i])
    decreases |anchors|
  {
    if |anchors| > 0 {
      var t := ProcessLink(s, anchors[0], c);
      SweepSettles(t, anchors[1..], c);
      var r := Sweep(s, anchors, c);
      assert r == Sweep(t, anchors[1..], c);
      assert Settled(t, anchors[0]);
      forall i | 0 <= i < |anchors| ensures Settled(r, anchors[i]) {
        if i > 0 {
          assert anchors[i] == anchors[1..][i - 1];
        }
      }
    }
  }

  lemma {:induction false} SweepFixpoint(s: PageState, anchors: seq<Anchor>, c: Clock)
    requires forall i :: 0 <= i < |anchors| ==> Settled(s, anchors[i])
    ensures Sweep(s, anchors, c) == s
    decreases |anchors|
  {
    if |anchors| > 0 {
      assert ProcessLink(s, anchors[0], c) == s;
      assert forall i :: 0 <= i < |anchors| - 1 ==> anchors[1..][i] == anchors[i + 1];
      SweepFixpoint(s, anchors[1..], c);
    }
  }

  /** A sweep over distinct anchors marks exactly the qualifying ones among
      those not yet in `markApplied`, each with its visit's tier and time. */
  lemma {:induction false} SweepMarksExactly(s: PageState, anchors: seq<Anchor>, c: Clock)
    requires DistinctIds(anchors)
    ensures forall i :: 0 <= i < |anchors| && anchors[i].id !in s.applied ==>
              (anchors[i].id in Sweep(s, anchors, c).applied <==> Qualifies(anchors[i], s.visited))
    ensures forall i :: 0 <= i < |anchors| && anchors[i].id !in s.applied && Qualifies(anchors[i], s.visited) ==>
              var v := s.visited[anchors[i].href];
              anchors[i].id in Sweep(s, anchors, c).marks &&
              Sweep(s, anchors, c).marks[anchors[i].id] == Mark(Classify(v, c.now, c.midnight), v, !s.visible)
    ensures forall i :: 0 <= i < |anchors| && !Qualifies(anchors[i], s.visited) ==>
              SameAt(s, Sweep(s, anchors, c), anchors[i].id)
    decreases |anchors|
  {
    if |anchors| > 0 {
      var a := anchors[0];
      var t := ProcessLink(s, a, c);
      var rest := anchors[1..];
      assert forall i :: 0 <= i < |rest| ==> rest[i] == anchors[i + 1];
      assert a.id !in Ids(rest);
      SweepMarksExactly(t, rest, c);
      var r := Sweep(t, rest, c);
      assert r == Sweep(s, anchors, c);
      assert SameAt(t, r, a.id);
    }
  }

  /** The insertion scenario: a subtree with three new anchors, two of them
      with visits, gains exactly two markers, and no other element's marker
      is touched. */
  lemma InsertedSubtreeScenario(s: PageState, a1: Anchor, a2: Anchor, a3: Anchor, c: Clock)
    requires a1.id != a2.id && a2.id != a3.id && a1.id != a3.id
    requires a1.id !in s.applied && a2.id !in s.applied && a3.id !in s.applied
    requires Qualifies(a1, s.visited) && Qualifies(a2, s.visited) && a3.href !in s.visited
    ensures Sweep(s, [a1, a2, a3], c).applied == s.applied + {a1.id, a2.id}
    ensures forall id :: id !in {a1.id, a2.id, a3.id} ==> SameAt(s, Sweep(s, [a1, a2, a3], c), id)
  {
    var page := [a1, a2, a3];
    SweepMarksExactly(s, page, c);
    var r := Sweep(s, page, c);
    assert page[0] == a1 && page[1] == a2 && page[2] == a3;
    assert Ids(page) == {a1.id, a2.id, a3.id};
    forall id | id in r.applied ensures id in s.applied + {a1.id, a2.id} {
      if id !in s.applied {
        var i :| 0 <= i < 3 && page[i].id == id && Qualifies(page[i], s.visited);
      }
    }
  }

  /** `markVisitedLinksOnPage`: the whole-page sweep, skipped while the
      extension or the current page's display is switched off. */
  function MarkVisitedLinksOnPage(s: PageState, page: seq<Anchor>, c: Clock): (r: PageState)
    ensures !(s.settings.enabled && s.settings.showCurrentPage) ==> r == s
    ensures s.applied <= r.applied
    ensures forall id :: id !in Ids(page) || id in s.applied ==> SameAt(s, r, id)
    ensures s.settings.enabled && s.settings.showCurrentPage && DistinctIds(page) ==>
              forall i :: 0 <= i < |page| && page[i].id !in s.applied ==>
                (page[i].id in r.applied <==> Qualifies(page[i], s.visited))
    ensures s.settings.enabled && s.settings.showCurrentPage && DistinctIds(page) ==>
              forall i :: 0 <= i < |page| && page[i].id !in s.applied && Qualifies(page[i], s.visited) ==>
                var v := s.visited[page[i].href];
                page[i].id in r.marks && r.marks[page[i].id] == Mark(Classify(v, c.now, c.midnight), v, !s.visible)
    ensures OnlyMarksDiffer(s, r) && (Valid(s) ==> Valid(r))
  {
    if !s.settings.enabled || !s.settings.showCurrentPage then s
    else
      var r := Sweep(s, page, c);
      if DistinctIds(page) then SweepMarksExactly(s, page, c); r else r
  }

  // ---------------------------------------------------------------------------
  // Visibility

  /** Every marker carries the hidden class exactly when `visible` is false. */
  function SetAllHidden(marks: map<nat, Mark>, visible: bool): (r: map<nat, Mark>)
    ensures r.Keys == marks.Keys
    ensures forall id :: id in r ==> r[id] == marks[id].(hidden := !visible)
  {
    map id | id in marks :: marks[id].(hidden := !visible)
  }

  /** `toggleVisibility`: the flag flips and every marked element follows it. */
  function ToggleVisibility(s: PageState): (r: PageState)
    ensures r.visible == !s.visible
    ensures r.marks.Keys == s.marks.Keys
    ensures forall id :: id in r.marks ==> (r.marks[id].hidden <==> !r.visible)
    ensures forall id :: id in r.marks ==> r.marks[id].tier == s.marks[id].tier && r.marks[id].time == s.marks[id].time
    ensures r == s.(visible := r.visible, marks := r.marks)
    ensures Valid(s) ==> Valid(r)
  {
    s.(visible := !s.visible, marks := SetAllHidden(s.marks, !s.visible))
  }

  /** Toggling twice restores the flag and every marker. */
  lemma ToggleTwice(s: PageState)
    requires Valid(s)
    ensures ToggleVisibility(ToggleVisibility(s)) == s
  {
    var r := ToggleVisibility(ToggleVisibility(s));
    forall id | id in s.marks ensures r.marks[id] == s.marks[id] {
    }
    assert r.marks == s.marks;
  }

  /** `updateVisibilityBasedOnSettings`: visibility becomes
      `enabled && showCurrentPage`; markers are restyled only on a change. */
  function UpdateVisibility(s: PageState): (r: PageState)
    ensures r.visible == (s.settings.enabled && s.settings.showCurrentPage)
    ensures r.visible == s.visible ==> r == s
    ensures r.marks.Keys == s.marks.Keys
    ensures r.visible != s.visible ==>
              forall id :: id in r.marks ==> r.marks[id] == s.marks[id].(hidden := !r.visible)
    ensures r == s.(visible := r.visible, marks := r.marks)
    ensures Valid(s) ==> Valid(r)
  {
    var should := s.settings.enabled && s.settings.showCurrentPage;
    if s.visible != should then s.(visible := should, marks := SetAllHidden(s.marks, should))
    else s
  }

  lemma UpdateVisibilityIdempotent(s: PageState)
    ensures UpdateVisibility(UpdateVisibility(s)) == UpdateVisibility(s)
  {
  }

  // ---------------------------------------------------------------------------
  // Per-URL operations (`a[href="url"]`)

  /** The elements whose literal href attribute is `url`. */
  function Selected(anchors: seq<Anchor>, url: string): set<nat> {
    set i | 0 <= i < |anchors| && anchors[i].attr == url :: anchors[i].id
  }

  /** `forceMarkLink`: every element whose href attribute is `url` joins
      `markApplied` and is marked as visited now (so Recent), whatever the
      ledger or the page-marking flag say. */
  function ForceMark(s: PageState, anchors: seq<Anchor>, url: string, c: Clock): (r: PageState)
    ensures OnlyMarksDiffer(s, r)
    ensures forall id :: id in Selected(anchors, url) ==>
              id in r.applied && id in r.marks && r.marks[id] == Mark(Classify(c.now, c.now, c.midnight), c.now, !s.visible)
    ensures forall id :: id !in Selected(anchors, url) ==> SameAt(s, r, id)
    ensures Valid(s) ==> Valid(r)
    decreases |anchors|
  {
    if |anchors| == 0 then s
    else
      var a := anchors[0];
      var t := if a.attr == url then ApplyMarkStyle(s.(applied := s.applied + {a.id}), a.id, c.now, c) else s;
      var r := ForceMark(t, anchors[1..], url, c);
      assert forall i :: 1 <= i < |anchors| ==> anchors[1..][i - 1] == anchors[i];
      assert Selected(anchors, url) == (if a.attr == url then {a.id} else {}) + Selected(anchors[1..], url) by {
        forall id | id in Selected(anchors, url)
          ensures id in (if a.attr == url then {a.id} else {}) + Selected(anchors[1..], url)
        {
          var i :| 0 <= i < |anchors| && anchors[i].attr == url && anchors[i].id == id;
          if i > 0 { assert anchors[1..][i - 1] == anchors[i]; }
        }
      }
      r
  }

  /** `ignoreLink`: every element whose href attribute is `url` loses its
      marker, its hidden class and its `markApplied` membership; the visit
      map is not touched. */
  function Ignore(s: PageState, anchors: seq<Anchor>, url: string): (r: PageState)
    ensures OnlyMarksDiffer(s, r)
    ensures forall id :: id in Selected(anchors, url) ==> id !in r.applied && id !in r.marks
    ensures forall id :: id !in Selected(anchors, url) ==> SameAt(s, r, id)
    ensures Valid(s) ==> Valid(r)
    decreases |anchors|
  {
    if |anchors| == 0 then s
    else
      var a := anchors[0];
      var t := if a.attr == url then s.(applied := s.applied - {a.id}, marks := s.marks - {a.id}) else s;
      var r := Ignore(t, anchors[1..], url);
      assert forall i :: 1 <= i < |anchors| ==> anchors[1..][i - 1] == anchors[i];
      assert Selected(anchors, url) == (if a.attr == url then {a.id} else {}) + Selected(anchors[1..], url) by {
        forall id | id in Selected(anchors, url)
          ensures id in (if a.attr == url then {a.id} else {}) + Selected(anchors[1..], url)
        {
          var i :| 0 <= i < |anchors| && anchors[i].attr == url && anchors[i].id == id;
          if i > 0 { assert anchors[1..][i - 1] == anchors[i]; }
        }
      }
      r
  }

  /** After ignoring a URL, the next sweep marks its elements again when the
      visit map still has the URL: ignoring is a rendering reset only. */
  lemma IgnoreThenSweepRemarks(s: PageState, a: Anchor, c: Clock)
    requires Qualifies(a, s.visited)
    ensures a.id in ProcessLink(Ignore(s, [a], a.attr), a, c).applied
  {
    assert [a][0].attr == a.attr;
    assert a.id in Selected([a], a.attr);
    var t := Ignore(s, [a], a.attr);
    assert a.id !in t.applied && t.visited == s.visited;
  }

  // ---------------------------------------------------------------------------
  // Clicks and visit recording

  /** A node on the path from a click target up to (not including) the body:
      an anchor, the manual-mode prompt box, or any other element. */
  datatype Node = LinkNode(anchor: Anchor) | PromptNode | PlainNode

  /** A link a click can record: a non-empty href beginning with "http". */
  predicate IsHttpLink(a: Anchor) {
    |a.href| > 0 && IsHttp(a.href)
  }

  /** The walk up from the click target: the nearest anchor with an http href.
      Anchors without one do not stop the walk. */
  function ClickedLink(path: seq<Node>): (r: Option<Anchor>)
    ensures r.Some? ==> IsHttpLink(r.value)
    ensures r.Some? ==>
      exists i :: 0 <= i < |path| && path[i] == LinkNode(r.value) &&
        forall j :: 0 <= j < i ==> !(path[j].LinkNode? && IsHttpLink(path[j].anchor))
    ensures r.None? ==> forall j :: 0 <= j < |path| ==> !(path[j].LinkNode? && IsHttpLink(path[j].anchor))
    decreases |path|
  {
    if |path| == 0 then None
    else if path[0].LinkNode? && IsHttpLink(path[0].anchor) then
      assert path[0] == LinkNode(path[0].anchor);
      Some(path[0].anchor)
    else
      var r := ClickedLink(path[1..]);
      assert forall j :: 1 <= j < |path| ==> path[j] == path[1..][j - 1];
      if r.Some? then
        var i :| 0 <= i < |path[1..]| && path[1..][i] == LinkNode(r.value) &&
                 forall j :: 0 <= j < i ==> !(path[1..][j].LinkNode? && IsHttpLink(path[1..][j].anchor));
        assert path[i + 1] == LinkNode(r.value);
        r
      else r
  }

  /** The in-page state and the stored ledger after an event. */
  datatype Step = Step(state: PageState, ledger: Visits)

  /** `registerLinkVisit`: the URL is set to `now` both in the page's visit map
      and in the stored ledger; nothing else changes. The callers have already
      checked the http prefix, so the stored write is `registerVisit`'s. */
  function RegisterLinkVisit(s: PageState, ledger: Visits, url: string, now: int): (r: Step)
    ensures r.state == s.(visited := r.state.visited)
    ensures r.state.visited.Keys == s.visited.Keys + {url} && r.state.visited[url] == now
    ensures forall u :: u in s.visited && u != url ==> r.state.visited[u] == s.visited[u]
    ensures r.ledger == ledger[url := now]
    ensures IsHttp(url) ==> r.ledger == RegisterVisit(ledger, url, now)
    ensures Valid(s) ==> Valid(r.state)
  {
    Step(s.(visited := s.visited[url := now]), ledger[url := now])
  }
}

=== FILE: options.dfy ===
/** The options page's state changes: the exclusion-list editor
    (`addExcludeSite`, `removeExcludeSite`) and the settings save
    (`saveSettings`). The stored values read before each change are
    parameters; rendering and messages are outside the model. */
module Options {
  import opened Wrappers
  import opened Strings
  import opened Config
  import opened Domain
  import opened Exclusion

  /** `value.trim().toLowerCase()`: the input without its leading and
      trailing white space, each remaining character lower-cased. */
  function Normalise(input: string): (r: string)
    ensures var k := LeadingSpace(input);
            && k + |r| <= |input|
            && (forall i :: 0 <= i < |input| && (i < k || k + |r| <= i) ==> IsSpace(input[i]))
            && forall i :: 0 <= i < |r| ==> r[i] == LowerChar(input[k + i])
    ensures |r| > 0 ==> !IsSpace(r[0]) && !IsSpace(r[|r| - 1])
    ensures forall i :: 0 <= i < |r| ==> !('A' <= r[i] <= 'Z')
  {
    var t := Trim(input);
    LowerKeepsEdges(t);
    ToLower(t)
  }

  /** Lower-casing keeps a string free of white space at both ends. */
  lemma LowerKeepsEdges(t: string)
    requires |t| > 0 ==> !IsSpace(t[0]) && !IsSpace(t[|t| - 1])
    ensures |ToLower(t)| > 0 ==> !IsSpace(ToLower(t)[0]) && !IsSpace(ToLower(t)[|t| - 1])
  {
    if |t| > 0 {
      assert ToLower(t)[0] == LowerChar(t[0]);
      assert ToLower(t)[|t| - 1] == LowerChar(t[|t| - 1]);
    }
  }

  /** Normalising twice is normalising once. */
  lemma NormaliseIdempotent(input: string)
    ensures Normalise(Normalise(input)) == Normalise(input)
  {
    var r := Normalise(input);
    TrimOfTrimmed(r);
    LowerOfLower(r);
  }

  /** A string with no upper-case letter is its own lower-case form. */
  lemma LowerOfLower(r: string)
    requires forall i :: 0 <= i < |r| ==> !('A' <= r[i] <= 'Z')
    ensures ToLower(r) == r
  {
  }

  /** A well-formed domain is its own normal form, so the editor takes a
      typed domain exactly as it was typed. */
  lemma NormaliseDomain(d: string)
    requires IsDomain(d)
    ensures Normalise(d) == d
  {
    DomainHasNoSpaceOrUpper(d);
    TrimOfTrimmed(d);
    LowerOfLower(d);
  }

  predicate NoDuplicates(sites: seq<string>) {
    forall i, j :: 0 <= i < j < |sites| ==> sites[i] != sites[j]
  }

  datatype Rejection = EmptySite | MalformedSite | DuplicateSite

  /** The list after an edit, and the reason it was refused, if it was. */
  datatype Edit = Edit(sites: seq<string>, rejected: Option<Rejection>)

  /** `addExcludeSite`: normalise, then refuse an empty input, a string that
      is not a domain, or a domain already listed; otherwise append it. A
      refusal leaves the list as it was. */
  function AddExcludeSite(input: string, sites: seq<string>): (r: Edit)
    ensures r.rejected.Some? ==> r.sites == sites
    ensures r.rejected == Some(EmptySite) <==> Normalise(input) == ""
    ensures r.rejected == Some(MalformedSite) <==> Normalise(input) != "" && !IsDomain(Normalise(input))
    ensures r.rejected == Some(DuplicateSite) <==> IsDomain(Normalise(input)) && Normalise(input) in sites
    ensures r.rejected.None? <==> IsDomain(Normalise(input)) && Normalise(input) !in sites
    ensures r.rejected.None? ==> r.sites == sites + [Normalise(input)] && |r.sites| == |sites| + 1
    ensures NoDuplicates(sites) ==> NoDuplicates(r.sites)
  {
    var site := Normalise(input);
    if site == "" then Edit(sites, Some(EmptySite))
    else if !IsDomain(site) then Edit(sites, Some(MalformedSite))
    else if site in sites then Edit(sites, Some(DuplicateSite))
    else
      var r := sites + [site];
      assert forall i :: 0 <= i < |sites| ==> r[i] == sites[i];
      Edit(r, None)
  }

  /** Every check sees the normalised input: adding the raw text and adding
      its normalised form are the same edit. */
  lemma AddNormalisesFirst(input: string, sites: seq<string>)
    ensures AddExcludeSite(input, sites) == AddExcludeSite(Normalise(input), sites)
  {
    NormaliseIdempotent(input);
  }

  /** A domain not yet listed is appended as typed. */
  lemma AddDomain(d: string, sites: seq<string>)
    requires IsDomain(d) && d !in sites
    ensures AddExcludeSite(d, sites) == Edit(sites + [d], None)
  {
    NormaliseDomain(d);
  }

  /** An accepted site is excluded from then on, as are its subdomains. */
  lemma AddedSiteIsExcluded(input: string, sites: seq<string>, sub: string)
    requires AddExcludeSite(input, sites).rejected.None?
    ensures IsExcluded(Normalise(input), AddExcludeSite(input, sites).sites)
    ensures IsExcluded(sub + "." + Normalise(input), AddExcludeSite(input, sites).sites)
  {
    AppendExcludes(Normalise(input), sites, Normalise(input));
    SubdomainExcluded(sub, Normalise(input), AddExcludeSite(input, sites).sites);
  }

  /** `removeExcludeSite`: `filter(s => s !== site)`. */
  function RemoveExcludeSite(site: string, sites: seq<string>): (r: seq<string>)
    ensures forall x :: x in r <==> x in sites && x != site
    ensures |r| <= |sites|
    ensures site !in sites ==> r == sites
    decreases |sites|
  {
    if |sites| == 0 then []
    else
      var rest := RemoveExcludeSite(site, sites[1..]);
      assert forall x :: x in sites <==> x == sites[0] || x in sites[1..];
      assert site !in sites ==> [sites[0]] + sites[1..] == sites;
      if sites[0] == site then rest else [sites[0]] + rest
  }

  /** Removal works piecewise, so the kept entries stay in their order. */
  lemma {:induction false} RemoveKeepsOrder(site: string, a: seq<string>, b: seq<string>)
    ensures RemoveExcludeSite(site, a + b) == RemoveExcludeSite(site, a) + RemoveExcludeSite(site, b)
    decreases |a|
  {
    if |a| > 0 {
      assert (a + b)[0] == a[0] && (a + b)[1..] == a[1..] + b;
      RemoveKeepsOrder(site, a[1..], b);
    } else {
      assert a + b == b;
    }
  }

  /** Removing a site just added gives the list back unchanged. */
  lemma AddThenRemove(input: string, sites: seq<string>)
    requires AddExcludeSite(input, sites).rejected.None?
    ensures RemoveExcludeSite(Normalise(input), AddExcludeSite(input, sites).sites) == sites
  {
    var site := Normalise(input);
    RemoveKeepsOrder(site, sites, [site]);
    assert RemoveExcludeSite(site, [site]) == [];
    assert sites + [] == sites;
  }

  /** The form fields `saveSettings` collects. */
  datatype Form = Form(
    autoEnable: bool,
    showControlButton: bool,
    historyMode: HistoryMode,
    customRetentionTime: int,
    autoClean: bool,
    cleanPeriod: int)

  /** The `storage.set` argument of `saveSettings`: the form's six fields,
      plus the stored exclusion list, colours and mark style (with the
      options page's defaults for absent ones). */
  function SaveWrite(form: Form, store: Patch): Patch {
    Patch(
      enabled := None,
      showCurrentPage := None,
      markStyle := Some(store.markStyle.GetOr(Border)),
      colors := Some(store.colors.GetOr(DefaultColors)),
      historyMode := Some(form.historyMode),
      customRetentionTime := Some(form.customRetentionTime),
      autoClean := Some(form.autoClean),
      cleanPeriod := Some(form.cleanPeriod),
      excludeSites := Some(store.excludeSites.GetOr(OptionsDefaultSites)),
      autoEnable := Some(form.autoEnable),
      showControlButton := Some(form.showControlButton))
  }

  /** The synced store after `saveSettings`: the form decides its six keys;
      the exclusion list, colours and mark style already stored are kept
      whatever the form holds; the popup's `enabled` and `showCurrentPage`
      are not written. */
  function SaveSettings(form: Form, store: Patch): (r: Patch)
    ensures store.excludeSites.Some? ==> r.excludeSites == store.excludeSites
    ensures store.colors.Some? ==> r.colors == store.colors
    ensures store.markStyle.Some? ==> r.markStyle == store.markStyle
    ensures r.enabled == store.enabled && r.showCurrentPage == store.showCurrentPage
    ensures r.autoEnable == Some(form.autoEnable) && r.showControlButton == Some(form.showControlButton)
    ensures r.historyMode == Some(form.historyMode) && r.customRetentionTime == Some(form.customRetentionTime)
    ensures r.autoClean == Some(form.autoClean) && r.cleanPeriod == Some(form.cleanPeriod)
  {
    Merge(store, SaveWrite(form, store))
  }

  /** No form can change the exclusion list, colours or mark style: two saves
      from the same store agree on them whatever the forms. */
  lemma SaveIgnoresFormForProtectedKeys(form1: Form, form2: Form, store: Patch)
    ensures SaveSettings(form1, store).excludeSites == SaveSettings(form2, store).excludeSites
    ensures SaveSettings(form1, store).colors == SaveSettings(form2, store).colors
    ensures SaveSettings(form1, store).markStyle == SaveSettings(form2, store).markStyle
  {
  }

  /** Saving the form on a profile with no stored exclusion list stores the
      options page's default list, which then excludes mail.google.com
      (the content and background scripts default to an empty list). */
  lemma SaveOnFreshProfileStoresDefaultSites(form: Form, store: Patch)
    requires store.excludeSites.None?
    ensures SaveSettings(form, store).excludeSites == Some(OptionsDefaultSites)
    ensures IsExcluded("mail.google.com", SaveSettings(form, store).excludeSites.value)
  {
    assert Matches("mail.google.com", OptionsDefaultSites[1]);
  }
}

=== FILE: router.dfy ===
/** The content script's message router (`handleMessages`) as a transition
    function: a message and the page's anchors in, the new page state, the
    reply and the side effects the handler requests out. */
module Router {
  import opened Wrappers
  import opened Config
  import opened Classifier
  import M = Marking
  import ManualMark

  /** The messages the content script understands; `Untyped` is a message
      with no (or an empty) `type`, `Unrecognised` any other type string.
      An empty `url` or `domain` stands for an absent one. */
  datatype Message =
    | Untyped
    | ToggleExtension(enabled: bool)
    | ToggleCurrentPage(showCurrentPage: bool)
    | UpdateMarkStyle(markStyle: MarkStyle)
    | UpdateColors(colors: Colors)
    | ApplySettings(patch: Patch)
    | ToggleVisibility
    | ForceMarkLink(url: string)
    | IgnoreLink(url: string)
    | DisablePage
    | EnablePage
    | SiteMuted(domain: string)
    | AddManualMark
    | Unrecognised(kind: string)

  datatype Response = Success | Failure(error: string)

  /** The toast texts, by meaning. */
  datatype Note =
    | MarksShown | MarksHidden | LinkMarked | LinkIgnored
    | PageDisabled | PageEnabled | SiteAdded(domain: string)

  /** Requests the handler makes of the world outside the page state:
      regenerate the style sheet, write the page's `page_marking:<url>` key,
      show a toast. */
  datatype Effect = RebuildStyles | StorePageFlag(enabled: bool) | Notify(note: Note)

  datatype Reply = Reply(state: M.PageState, response: Response, effects: seq<Effect>)

  const InvalidMessage := "Invalid message"

  /** `updateFloatButtonVisibility`: the button follows `showControlButton`. */
  function SyncButton(s: M.PageState): (r: M.PageState)
    ensures r.button == s.settings.showControlButton
    ensures r == s.(button := r.button)
  {
    s.(button := s.settings.showControlButton)
  }

  function VisibilityNote(s: M.PageState): Note {
    if s.visible then MarksShown else MarksHidden
  }

  /** The messages that change the settings the page holds. */
  predicate ChangesSettings(m: Message) {
    m.ToggleExtension? || m.ToggleCurrentPage? || m.UpdateMarkStyle? || m.UpdateColors? || m.ApplySettings?
  }

  /** `handleMessages` for the settings messages: the new value is stored,
      visibility is recomputed or the style sheet rebuilt; no marker is
      added or removed and manual-mark mode, the observer and the page flag
      are kept. */
  function HandleSettings(s: M.PageState, m: Message): (r: Reply)
    requires ChangesSettings(m)
    ensures r.response == Success
    ensures m.ToggleExtension? ==>
              r.state == M.UpdateVisibility(s.(settings := s.settings.(enabled := m.enabled))) && r.effects == []
    ensures m.ToggleCurrentPage? ==>
              r.state == M.UpdateVisibility(s.(settings := s.settings.(showCurrentPage := m.showCurrentPage)))
              && r.effects == []
    ensures m.UpdateMarkStyle? ==>
              r.state == s.(settings := s.settings.(markStyle := m.markStyle)) && r.effects == [RebuildStyles]
    ensures m.UpdateColors? ==>
              r.state == s.(settings := s.settings.(colors := m.colors)) && r.effects == [RebuildStyles]
    ensures m.ApplySettings? ==>
              && r.state.settings == Overlay(s.settings, m.patch)
              && r.state.selecting == s.selecting && r.state.observing == s.observing
              && r.effects == [RebuildStyles]
    ensures r.state.visited == s.visited && r.state.applied == s.applied && r.state.marks.Keys == s.marks.Keys
    ensures r.state.pageMarking == s.pageMarking
    ensures M.Valid(s) ==> M.Valid(r.state)
  {
    match m
    case ToggleExtension(e) =>
      Reply(M.UpdateVisibility(s.(settings := s.settings.(enabled := e))), Success, [])
    case ToggleCurrentPage(v) =>
      Reply(M.UpdateVisibility(s.(settings := s.settings.(showCurrentPage := v))), Success, [])
    case UpdateMarkStyle(style) =>
      Reply(s.(settings := s.settings.(markStyle := style)), Success, [RebuildStyles])
    case UpdateColors(colors) =>
      Reply(s.(settings := s.settings.(colors := colors)), Success, [RebuildStyles])
    case ApplySettings(p) =>
      var t := s.(settings := Overlay(s.settings, p));
      Reply(SyncButton(M.UpdateVisibility(t)), Success, [RebuildStyles])
  }

  /** `handleMessages` for the page messages: visibility, the per-URL
      operations, the page flag, the site-muted note and manual-mark mode.
      The settings are never changed. */
  function HandlePage(s: M.PageState, m: Message, page: seq<M.Anchor>, c: M.Clock): (r: Reply)
    requires !ChangesSettings(m)
    ensures r.response == Success <==> !m.Untyped?
    ensures r.response.Failure? ==> r.response.error == InvalidMessage
    ensures m.Untyped? || m.Unrecognised? ==> r.state == s && r.effects == []
    ensures m.ToggleVisibility? ==>
              r.state == M.ToggleVisibility(s) && r.effects == [Notify(if r.state.visible then MarksShown else MarksHidden)]
    ensures m.ForceMarkLink? ==>
              if m.url == "" then r.state == s && r.effects == []
              else r.state == M.ForceMark(s, page, m.url, c) && r.effects == [Notify(LinkMarked)]
    ensures m.IgnoreLink? ==>
              if m.url == "" then r.state == s && r.effects == []
              else r.state == M.Ignore(s, page, m.url) && r.effects == [Notify(LinkIgnored)]
    ensures m.DisablePage? || m.EnablePage? ==>
              && r.state == s.(pageMarking := m.EnablePage?)
              && r.effects == [StorePageFlag(m.EnablePage?), Notify(if m.EnablePage? then PageEnabled else PageDisabled)]
    ensures m.SiteMuted? ==>
              r.state == s && r.effects == if m.domain == "" then [] else [Notify(SiteAdded(m.domain))]
    ensures m.AddManualMark? ==>
              r.state == s.(selecting := Some(M.Selection(ManualMark.MarkableLinks(page), None)))
              && r.effects == []
    ensures r.state.settings == s.settings && r.state.visited == s.visited
    ensures M.Valid(s) ==> M.Valid(r.state)
  {
    match m
    case Untyped => Reply(s, Failure(InvalidMessage), [])
    case ToggleVisibility =>
      var t := M.ToggleVisibility(s);
      Reply(t, Success, [Notify(VisibilityNote(t))])
    case ForceMarkLink(url) =>
      if url == "" then Reply(s, Success, [])
      else Reply(M.ForceMark(s, page, url, c), Success, [Notify(LinkMarked)])
    case IgnoreLink(url) =>
      if url == "" then Reply(s, Success, [])
      else Reply(M.Ignore(s, page, url), Success, [Notify(LinkIgnored)])
    case DisablePage =>
      Reply(s.(pageMarking := false), Success, [StorePageFlag(false), Notify(PageDisabled)])
    case EnablePage =>
      Reply(s.(pageMarking := true), Success, [StorePageFlag(true), Notify(PageEnabled)])
    case SiteMuted(domain) =>
      Reply(s, Success, if domain == "" then [] else [Notify(SiteAdded(domain))])
    case AddManualMark =>
      Reply(ManualMark.EnterMode(s, page), Success, [])
    case Unrecognised(_) => Reply(s, Success, [])
  }

  /** `handleMessages`. `page` is the page's anchors when the message
      arrives. Every message but the untyped one is answered with success. */
  function Handle(s: M.PageState, m: Message, page: seq<M.Anchor>, c: M.Clock): (r: Reply)
    ensures r.response == Success <==> !m.Untyped?
    ensures r.response.Failure? ==> r.response.error == InvalidMessage
    ensures m.Untyped? || m.Unrecognised? ==> r.state == s && r.effects == []
    ensures m.ToggleVisibility? ==>
              r.state == M.ToggleVisibility(s) && r.effects == [Notify(if r.state.visible then MarksShown else MarksHidden)]
    ensures m.ForceMarkLink? ==>
              if m.url == "" then r.state == s && r.effects == []
              else r.state == M.ForceMark(s, page, m.url, c) && r.effects == [Notify(LinkMarked)]
    ensures m.IgnoreLink? ==>
              if m.url == "" then r.state == s && r.effects == []
              else r.state == M.Ignore(s, page, m.url) && r.effects == [Notify(LinkIgnored)]
    ensures m.DisablePage? || m.EnablePage? ==>
              && r.state == s.(pageMarking := m.EnablePage?)
              && r.effects == [StorePageFlag(m.EnablePage?), Notify(if m.EnablePage? then PageEnabled else PageDisabled)]
    ensures m.SiteMuted? ==>
              r.state == s && r.effects == if m.domain == "" then [] else [Notify(SiteAdded(m.domain))]
    ensures m.AddManualMark? ==>
              r.state == s.(selecting := Some(M.Selection(ManualMark.MarkableLinks(page), None)))
              && r.effects == []
    ensures m.ToggleExtension? ==>
              r.state == M.UpdateVisibility(s.(settings := s.settings.(enabled := m.enabled))) && r.effects == []
    ensures m.ToggleCurrentPage? ==>
              r.state == M.UpdateVisibility(s.(settings := s.settings.(showCurrentPage := m.showCurrentPage)))
              && r.effects == []
    ensures m.UpdateMarkStyle? ==>
              r.state == s.(settings := s.settings.(markStyle := m.markStyle)) && r.effects == [RebuildStyles]
    ensures m.UpdateColors? ==>
              r.state == s.(settings := s.settings.(colors := m.colors)) && r.effects == [RebuildStyles]
    ensures m.ApplySettings? ==>
              && r.state.settings == Overlay(s.settings, m.patch)
              && r.state.selecting == s.selecting && r.state.observing == s.observing
              && r.effects == [RebuildStyles]
    ensures ChangesSettings(m) ==> r.state.applied == s.applied && r.state.marks.Keys == s.marks.Keys
    ensures !ChangesSettings(m) ==> r.state.settings == s.settings
    ensures r.state.visited == s.visited
    ensures M.Valid(s) ==> M.Valid(r.state)
  {
    if ChangesSettings(m) then HandleSettings(s, m) else HandlePage(s, m, page, c)
  }

  /** `applySettings` spreads the payload over the settings: every key the
      payload carries takes its value, every other key is unchanged; then
      visibility is recomputed from the result and the button follows it. */
  lemma ApplySettingsOverridesOnlyPresent(s: M.PageState, p: Patch, page: seq<M.Anchor>, c: M.Clock)
    ensures var r := Handle(s, ApplySettings(p), page, c).state;
            && (forall f :: p.Lookup(f).Some? ==> r.settings.Get(f) == p.Lookup(f).value)
            && (forall f :: p.Lookup(f).None? ==> r.settings.Get(f) == s.settings.Get(f))
            && r.visible == (r.settings.enabled && r.settings.showCurrentPage)
            && r.button == r.settings.showControlButton
            && r.applied == s.applied && r.pageMarking == s.pageMarking
            && r.marks.Keys == s.marks.Keys
            && (forall id :: id in r.marks ==> r.marks[id].tier == s.marks[id].tier && r.marks[id].time == s.marks[id].time)
  {
  }

  /** `disablePage` and `enablePage` set the page flag and nothing else in the
      page: no marker, no visit and no visibility changes, and no re-sweep. */
  lemma PageFlagMessagesOnlySetFlag(s: M.PageState, page: seq<M.Anchor>, c: M.Clock)
    ensures Handle(s, DisablePage, page, c).state == s.(pageMarking := false)
    ensures Handle(s, EnablePage, page, c).state == s.(pageMarking := true)
    ensures Handle(s, DisablePage, page, c).effects[0] == StorePageFlag(false)
    ensures Handle(s, EnablePage, page, c).effects[0] == StorePageFlag(true)
  {
  }

  /** `forceMarkLink` marks every element with that href attribute as visited
      now, in the Recent tier, even while page marking is disabled; the
      page's visit map is not changed. */
  lemma ForceMarkWhileDisabled(s: M.PageState, page: seq<M.Anchor>, url: string, c: M.Clock)
    requires !s.pageMarking && url != ""
    ensures var r := Handle(s, ForceMarkLink(url), page, c).state;
            && (forall id :: id in M.Selected(page, url) ==>
                  id in r.applied && id in r.marks && r.marks[id] == M.Mark(Recent, c.now, !s.visible))
            && !r.pageMarking && r.visited == s.visited
  {
    var r := Handle(s, ForceMarkLink(url), page, c).state;
    ClassifyNow(c.now, c.midnight);
    assert r == M.ForceMark(s, page, url, c);
  }

  /** `ignoreLink` followed by `forceMarkLink` for the same URL leaves the
      elements marked Recent again, and neither message touches the visit map. */
  lemma IgnoreThenForceMark(s: M.PageState, page: seq<M.Anchor>, url: string, c: M.Clock)
    requires url != ""
    ensures var t := Handle(s, IgnoreLink(url), page, c).state;
            var r := Handle(t, ForceMarkLink(url), page, c).state;
            && (forall id :: id in M.Selected(page, url) ==> id !in t.applied && id !in t.marks)
            && (forall id :: id in M.Selected(page, url) ==> id in r.marks && r.marks[id].tier == Recent)
            && t.visited == s.visited && r.visited == s.visited
  {
    ClassifyNow(c.now, c.midnight);
  }

  /** Two `toggleVisibility` messages restore the page. */
  lemma ToggleMessageTwice(s: M.PageState, page: seq<M.Anchor>, c: M.Clock)
    requires M.Valid(s)
    ensures Handle(Handle(s, ToggleVisibility, page, c).state, ToggleVisibility, page, c).state == s
  {
    M.ToggleTwice(s);
  }

  /** The bookkeeping invariant holds after any sequence of messages. */
  function HandleAll(s: M.PageState, ms: seq<Message>, page: seq<M.Anchor>, c: M.Clock): (r: M.PageState)
    ensures M.Valid(s) ==> M.Valid(r)
    ensures r.visited == s.visited
    decreases |ms|
  {
    if |ms| == 0 then s else HandleAll(Handle(s, ms[0], page, c).state, ms[1..], page, c)
  }
}

=== FILE: strings.dfy ===
/** String helpers with the meaning the extension's JavaScript gives them.
    Strings are sequences of characters; trimming and lower-casing are the
    ASCII cases of `String.prototype.trim` and `toLowerCase`. */
module Strings {

  predicate StartsWith(s: string, prefix: string) {
    |prefix| <= |s| && s[..|prefix|] == prefix
  }

  predicate EndsWith(s: string, suffix: string) {
    |suffix| <= |s| && s[|s| - |suffix|..] == suffix
  }

  /** `url.startsWith('http')`: the only scheme test the extension makes. */
  predicate IsHttp(url: string) {
    StartsWith(url, "http")
  }

  /** Prepending text keeps a suffix. */
  lemma EndsWithPrepend(prefix: string, s: string, suffix: string)
    requires EndsWith(s, suffix)
    ensures EndsWith(prefix + s, suffix)
  {
    var t := prefix + s;
    assert t[|t| - |suffix|..] == s[|s| - |suffix|..];
  }

  // ---------------------------------------------------------------------------
  // Whitespace trimming

  /** The ASCII white space `trim` removes. */
  const WhiteSpace: set<char> := {' ', '\t', '\n', '\r', '\U{000B}', '\U{000C}'}

  predicate IsSpace(c: char) {
    c in WhiteSpace
  }

  /** The first index at or after `k` whose character is not white space
      (`|s|` when there is none). */
  function SkipSpace(s: string, k: nat): (i: nat)
    requires k <= |s|
    ensures k <= i <= |s|
    ensures forall j :: k <= j < i ==> IsSpace(s[j])
    ensures i < |s| ==> !IsSpace(s[i])
    decreases |s| - k
  {
    if k < |s| && IsSpace(s[k]) then SkipSpace(s, k + 1) else k
  }

  /** Walking back from `e` towards `k` over white space: the index just past
      the last non-space character in `s[k..e]` (`k` when there is none). */
  function BackOverSpace(s: string, k: nat, e: nat): (i: nat)
    requires k <= e <= |s|
    ensures k <= i <= e
    ensures forall j :: i <= j < e ==> IsSpace(s[j])
    ensures i > k ==> !IsSpace(s[i - 1])
    decreases e
  {
    if e > k && IsSpace(s[e - 1]) then BackOverSpace(s, k, e - 1) else e
  }

  /** The number of white-space characters `s` starts with. */
  function LeadingSpace(s: string): (k: nat)
    ensures k <= |s|
  {
    SkipSpace(s, 0)
  }

  /** `trim`: the contiguous run of `s` left after its leading and trailing
      white space; it neither starts nor ends with a space. */
  function Trim(s: string): (r: string)
    ensures LeadingSpace(s) + |r| <= |s|
    ensures r == s[LeadingSpace(s)..LeadingSpace(s) + |r|]
    ensures forall i :: 0 <= i < LeadingSpace(s) ==> IsSpace(s[i])
    ensures forall i :: LeadingSpace(s) + |r| <= i < |s| ==> IsSpace(s[i])
    ensures |r| > 0 ==> !IsSpace(r[0]) && !IsSpace(r[|r| - 1])
  {
    var k := SkipSpace(s, 0);
    var e := BackOverSpace(s, k, |s|);
    s[k..e]
  }

  /** Trimming drops only white space: it keeps a contiguous run of `s`
      holding every other character. */
  lemma TrimKeepsNonSpace(s: string)
    ensures var k := LeadingSpace(s);
            && k + |Trim(s)| <= |s| && Trim(s) == s[k..k + |Trim(s)|]
            && forall i :: 0 <= i < |s| && (i < k || k + |Trim(s)| <= i) ==> IsSpace(s[i])
    ensures forall c :: c in Trim(s) ==> c in s
    ensures forall i :: 0 <= i < |s| && !IsSpace(s[i]) ==> s[i] in Trim(s)
  {
    var r := Trim(s);
    var k := LeadingSpace(s);
    forall i | 0 <= i < |s| && !IsSpace(s[i]) ensures s[i] in r {
      assert k <= i < k + |r|;
      assert r[i - k] == s[i];
    }
  }

  /** A string that neither starts nor ends with a space is its own trim. */
  lemma TrimOfTrimmed(s: string)
    requires |s| > 0 ==> !IsSpace(s[0]) && !IsSpace(s[|s| - 1])
    ensures Trim(s) == s
  {
  }

  // ---------------------------------------------------------------------------
  // Lower-casing

  function LowerChar(c: char): (r: char)
    ensures IsSpace(r) <==> IsSpace(c)
    ensures !('A' <= r <= 'Z')
  {
    if 'A' <= c <= 'Z' then (c as int + 32) as char else c
  }

  function ToLower(s: string): (r: string)
    ensures |r| == |s|
    ensures forall i :: 0 <= i < |s| ==> r[i] == LowerChar(s[i])
  {
    seq(|s|, i requires 0 <= i < |s| => LowerChar(s[i]))
  }

  // ---------------------------------------------------------------------------
  // Splitting on a separator and joining back

  function Join(parts: seq<string>, sep: char): string
    requires |parts| > 0
    decreases |parts|
  {
    if |parts| == 1 then parts[0] else parts[0] + [sep] + Join(parts[1..], sep)
  }

  /** Cuts `s` at every `sep`; joining the pieces gives `s` back. */
  function Split(s: string, sep: char): (parts: seq<string>)
    ensures |parts| > 0
    ensures forall i :: 0 <= i < |parts| ==> sep !in parts[i]
    ensures Join(parts, sep) == s
    decreases |s|
  {
    if |s| == 0 then [""]
    else
      var rest := Split(s[1..], sep);
      if s[0] == sep then
        var parts := [""] + rest;
        assert parts[1..] == rest;
        parts
      else
        var parts := [[s[0]] + rest[0]] + rest[1..];
        assert |rest| > 1 ==> parts[1..] == rest[1..] && Join(rest, sep) == rest[0] + [sep] + Join(rest[1..], sep);
        parts
  }

  lemma {:induction false} SplitWithoutSeparator(p: string, sep: char)
    requires sep !in p
    ensures Split(p, sep) == [p]
    decreases |p|
  {
    if |p| > 0 {
      assert sep !in p[1..];
      SplitWithoutSeparator(p[1..], sep);
      assert [p[0]] + p[1..] == p;
    }
  }

  lemma {:induction false} SplitCons(p: string, sep: char, rest: string)
    requires sep !in p
    ensures Split(p + [sep] + rest, sep) == [p] + Split(rest, sep)
    decreases |p|
  {
    var s := p + [sep] + rest;
    if |p| == 0 {
      assert s[0] == sep && s[1..] == rest;
    } else {
      assert s[1..] == p[1..] + [sep] + rest;
      assert sep !in p[1..];
      SplitCons(p[1..], sep, rest);
      assert [p[0]] + p[1..] == p;
    }
  }

  /** Splitting undoes joining when no piece contains the separator. */
  lemma {:induction false} SplitJoin(parts: seq<string>, sep: char)
    requires |parts| > 0
    requires forall i :: 0 <= i < |parts| ==> sep !in parts[i]
    ensures Split(Join(parts, sep), sep) == parts
    decreases |parts|
  {
    if |parts| == 1 {
      SplitWithoutSeparator(parts[0], sep);
    } else {
      SplitJoin(parts[1..], sep);
      SplitCons(parts[0], sep, Join(parts[1..], sep));
      assert [parts[0]] + parts[1..] == parts;
    }
  }
}

=== FILE: wrappers.dfy ===
/** The optional-value datatype shared by the model: a JavaScript key that
    may be absent (`undefined`) is a `None`. */
module Wrappers {

  datatype Option<+T> = None | Some(value: T) {

    /** The value if present, otherwise `default`. */
    function GetOr(default: T): T {
      match this
      case Some(v) => v
      case None => default
    }
  }
}
